=== FILE: README.md ===
# VibeInvaders gameplay core in Dafny

A functional model of the simulation inside `src/invaders.c`, a raylib Space
Invaders clone: the destructible shield masks, the ten-slot pools for enemy
shots and explosions, the 5 x 11 swarm controller with its lockstep march and
shooting scheduler, the bonus saucer, the player's cannon and its single shot,
projectile motion, the per-frame collision resolver and the session lifecycle
(pause, restart, wave transition, game over).

The state is an immutable `Game` record (module `World`) with fixed-length
sequences for the alien grid, the pools and the shields; every step is a pure
function of the state, the frame time `delta` and the frame's random draws,
which are parameters. Positions are exact `real`s and rectangle contact is
raylib's strict-overlap test. Texture sizes become a `Sprites` record; the
shield image is a `seq<seq<Byte>>` of alpha values.

Modules, in dependency order: `Basics` (option type, first-match scan,
clamp), `Geometry`, `Pool` (generic first-fit slot pool), `Shields`,
`Effects` (explosions), `Swarm`, `Saucer`, `Ship`, `World` (the session record
and its invariant `Inv`), `Projectiles` (the bullet update), `Collisions`,
`Session` (the frame update).

An enemy shot that hits the cannon is not also tested against the shields in
the same frame: the cannon check clears the shot's active flag first
(src/invaders.c:1079-1083) and the shield pass skips inactive shots
(src/invaders.c:1090-1092), so each shot is resolved once.
`Collisions.ConsumedShotSkipsShields` states this.

## Model

| member | source | states |
|---|---|---|
| Basics.Clamp | src/invaders.c:307-313 | raising to `lo` then lowering to `hi` lands in `[lo, hi]`, keeps in-range values and maps low values to `lo` and high ones to `hi` |
| Shields.ToMask | src/invaders.c:292-315 | the world-to-mask transform always lands in `[0, texW-1] x [0, texH-1]` and is the clamp of the scaled, Y-flipped offset |
| Shields.ToMaskFromMask | src/invaders.c:292-315 | every in-range mask point is reached from its world preimage, so the transform inverts exactly on the shield |
| Shields.ToMaskMonotone | src/invaders.c:301-313 | moving right never moves the mask point left; moving down never moves it down in the flipped mask |
| Shields.Damage | src/invaders.c:900-933 | an inactive shield is unchanged; on an active one every pixel within distance 5 of the mapped point becomes transparent and every other pixel keeps its alpha |
| Shields.DamageClearsContact | src/invaders.c:900-922 | after a hit the contact point itself tests transparent |
| Shields.DamageIdempotent | src/invaders.c:900-922 | a second hit at the same point changes nothing |
| Shields.TripleDamageIsSingle | src/invaders.c:636-638 | the three stamps of the swarm's contact carve the same hole as one |
| Shields.DamageOnlyErases | src/invaders.c:911-922 | a point that is opaque after a hit anywhere was opaque before |
| Shields.InitShields | src/invaders.c:533-551 | four active shields whose masks hold the whole base image upside down (row `y` of the mask is row `h - 1 - y` of the image, as the render texture stores it), bounds twice the texture size, top edge 120 above the bottom |
| Shields.FlipRows | src/invaders.c:546-549 | the flipped image keeps the row count and its row `y` is the original's row `h - 1 - y` |
| Shields.FreshShieldUpright | src/invaders.c:292-315 | on a fresh shield the world point at the centre of cell (col, row) samples the base image's own pixel (col, row): the transform's flip and the stored flip cancel |
| Shields.ShieldRowEvenlySpaced | src/invaders.c:534-540 | the same gap lies left of the first shield, between neighbours and right of the last |
| Shields.FirstBlocking | src/invaders.c:1043-1065 | the first shield in index order that is active, overlapped and opaque at the contact point, or none if no shield is |
| Shields.FirstOverlapping | src/invaders.c:755-792 | the first active shield in index order whose bounds the shot overlaps, or none |
| Shields.Strike | src/invaders.c:1057 | only the struck shield's mask changes |
| Shields.ErasedFromRefl | src/invaders.c:900-933 | a row of shields is related to itself by "only erased" |
| Shields.ErasedFromTrans | src/invaders.c:900-933 | hits after hits still only erase: the relation composes |
| Shields.StrikeErases | src/invaders.c:900-933 | a strike keeps every shield's place, size and flag and only makes pixels transparent |
| Shields.ErasedOpaque | src/invaders.c:900-933 | after hits, a point that tests solid tested solid before |
| Shields.ErasedUnblocked | src/invaders.c:1043-1065 | if no shield blocked a shot before some hits, none blocks it after them |
| Shields.ErasedSameOverlap | src/invaders.c:755-792 | hits never change which shield a shot overlaps first |
| Pool.FirstFree | src/invaders.c:1134-1143 | the lowest-index inactive slot, or none exactly when every slot is active |
| Pool.Acquire | src/invaders.c:1134-1143 | a full pool is unchanged; otherwise exactly the lowest-index free slot becomes active with the item and every other slot is unchanged |
| Pool.CountActiveBound | src/invaders.c:1134-1143 | the active count never exceeds the capacity and equals it exactly when no slot is free |
| Pool.CountActiveUpdate | src/invaders.c:1134-1143 | overwriting one slot moves the active count by that slot's change of flag |
| Pool.AcquireCount | src/invaders.c:1134-1143 | a spawn adds one active slot unless the pool is full |
| Pool.AcquireEachCount | src/invaders.c:1134-1143 | after a run of spawns the count is the smaller of capacity and old count plus requests |
| Pool.AcquireEachFull | src/invaders.c:1134-1143 | every spawn into a full pool is dropped |
| Pool.Cleared | src/invaders.c:1190 | clearing deactivates every slot and keeps the payloads |
| Pool.ClearedCount | src/invaders.c:1190 | a cleared pool has no active slot |
| Pool.CapacityScenario | src/invaders.c:1134-1143 | eleven spawns into an empty ten-slot pool: ten succeed and the eleventh is dropped |
| Pool.AcquireEachSplit | src/invaders.c:1134-1143 | spawning two runs one after the other is spawning their concatenation |
| Pool.CountActiveMonotone | src/invaders.c:874-883 | a pass that only deactivates slots never raises the count |
| Effects.NewBlast | src/invaders.c:888-893 | a new explosion is centred on the requested point with the requested size and a 0.3 s lifetime |
| Effects.SpawnExplosion | src/invaders.c:885-898 | a full pool is unchanged; otherwise the lowest-index free slot, and only it, now holds the new explosion and one more explosion is live |
| Effects.UpdateExplosions | src/invaders.c:874-883 | every live explosion loses `delta` and stays live exactly while its timer is positive; idle slots are untouched |
| Effects.ExplosionLifecycle | src/invaders.c:874-898 | spawning and counting down keep every live timer in (0, 0.3], and a frame never adds explosions |
| Swarm.CountAliveSameFlags | src/invaders.c:670-680 | grids with the same active flags have the same live count |
| Swarm.CountAliveKill | src/invaders.c:1010-1011 | deactivating a live alien lowers the live count by exactly one |
| Swarm.CountAliveAll | src/invaders.c:495-527 | a grid with every alien active has all of them live |
| Swarm.WaveWaitTimeDecreasing | src/invaders.c:525 | later waves start with a strictly shorter, positive wait, never longer than 0.8 s |
| Swarm.InitAliens | src/invaders.c:484-531 | 55 live aliens on the 80/80 grid with 45/35 spacing, rows tiered top/middle/bottom, live counter 55, moving right, wait set by the wave, shot timer from the draw |
| Swarm.GridPoints | src/invaders.c:499-517 | 30 points in the top row, 20 in rows 1-2, 10 in rows 3-4 |
| Swarm.Leftmost | src/invaders.c:651-660 | the smallest x of a live alien, or 800 when none is live |
| Swarm.Rightmost | src/invaders.c:651-660 | the largest right edge of a live alien, or 0 when none is live |
| Swarm.March | src/invaders.c:649-692 | at an edge the direction reverses and live aliens drop 2 with x unchanged, otherwise they move 3 in the direction; live frames toggle, dead aliens are untouched, the cue advances mod 4, the timer restarts from the wait |
| Swarm.MarchWellFormed | src/invaders.c:649-692 | a march step keeps the grid size, the live counter and the direction valid |
| Swarm.MarchStaysInField | src/invaders.c:662-676 | a swarm inside the play field stays inside it after a step |
| Swarm.EdgeReversalScenario | src/invaders.c:663-674 | moving right with the rightmost live edge at 798, the next step reverses and drops |
| Swarm.MoveTick | src/invaders.c:647-649 | the swarm steps exactly when the march timer runs out, else only the timer moves |
| Swarm.PickShooter | src/invaders.c:697-728 | the first draw in the bounded tries that names a live alien, or none exactly when every try misses |
| Swarm.ShotOrigin | src/invaders.c:723-724 | the shot starts centred under the shooter, at its lower edge |
| Swarm.ShootMultiplier | src/invaders.c:733 | the population multiplier lies in [0.5, 1.0] and is 1.0 at full strength |
| Swarm.NextShootTimer | src/invaders.c:733-735 | the new interval is at least 0.1 s and, above the floor, is the scaled draw |
| Swarm.ShootIntervalFloorUnreached | src/invaders.c:733-735 | for draws the game makes the floor never applies and the interval lies in [0.25, 2.0] s |
| Swarm.ShootTick | src/invaders.c:695-736 | when the timer runs out with aliens left, the picked shooter's shot is spawned and the timer rescheduled; otherwise only the timer counts down |
| Swarm.UpdateAliens | src/invaders.c:646-737 | the controller keeps its invariants and live flags, and adds at most one enemy shot |
| Saucer.SpawnUfo | src/invaders.c:1145-1159 | side draw 0 enters at the left edge moving right at 55, anything else at the right edge moving left, at height 50, not exploding |
| Saucer.SpawnEntersFromOutside | src/invaders.c:1151-1157 | the saucer starts outside the field and heads into it |
| Saucer.UpdateUfo | src/invaders.c:821-872 | idle: the spawn timer counts down and the saucer enters when it runs out; active: it moves by speed x `delta` (also while exploding), leaves past the far edge with a frame-based delay (also while exploding), and an ended explosion retires it with a 30-240 s delay; a saucer not exploding keeps its explosion timer |
| Saucer.RespawnAfterExplosionInRange | src/invaders.c:863-868 | after an explosion the next saucer is 30 to 240 s away |
| Saucer.RespawnAfterExitAtSixtyHz | src/invaders.c:851-859 | after an exit at 60 frames per second the delay is 10 to 30 s, not the explosion's range |
| Saucer.TravelTowardsExit | src/invaders.c:842 | an active saucer always moves towards the edge it exits through |
| Ship.HomePosition | src/invaders.c:606 | the cannon reappears horizontally centred, 20 above the bottom |
| Ship.SpawnPlayerShot | src/invaders.c:1125-1132 | a shot appears exactly when none is active and the cannon is not exploding, centred on the cannon just above it; otherwise nothing changes |
| Ship.Control | src/invaders.c:576-596 | steering by 5 per held input, kept within `[0, 800 - width]`, and fire creates a shot unless one is active, centred on the steered cannon just above it; otherwise the shot's position is untouched |
| Ship.DeathCountdown | src/invaders.c:597-610 | the timer counts down; when it runs out one life is lost and either the game ends (no lives left) or the cannon goes home |
| Ship.PlayerPhase | src/invaders.c:575-610 | a frame costs at most one life and ends the game only when the last life's explosion runs out |
| Ship.ThirdDeathEndsGame | src/invaders.c:598-602 | an ended explosion ends the game exactly at one life left, and from three lives leaves two |
| Ship.MovePlayerShot | src/invaders.c:741-747 | the shot rises 7 and is gone exactly when entirely above the screen |
| World.WithScore | src/invaders.c:1012-1013 | the high score is raised to the score when behind and otherwise kept |
| Projectiles.ShotContact | src/invaders.c:772-773 | an enemy shot touches at the middle of its lower edge |
| Projectiles.ShieldTarget | src/invaders.c:755-792 | the collision pass takes the first blocking shield; the bullet-update pass stops a shot exactly when the first overlapped shield is opaque at the contact point, and then at that shield |
| Projectiles.ErasedNotStopped | src/invaders.c:755-792 | a shot that the shields do not stop is not stopped after further hits on them either |
| Projectiles.StopAtOverlapPassesThrough | src/invaders.c:791 | when the first overlapped shield is clear at the contact point the bullet-update pass lets the shot through even if a later shield would block it |
| Projectiles.PassesAgreeOnSingleOverlap | src/invaders.c:755-792 | when a shot overlaps at most one active shield the two passes pick the same shield |
| Projectiles.ResolveShot | src/invaders.c:770-790 | one shot's step touches no other shot, keeps which shields are active and the shot's position, and a shot that stays live leaves the whole state unchanged |
| Projectiles.ResolveShotOutcome | src/invaders.c:770-790 | the shot stays live exactly when it was live and the shields do not stop it; when stopped, the target shield is struck at the contact point and an impact explosion is spawned there; otherwise nothing changes |
| Projectiles.ResolveShotErases | src/invaders.c:770-790 | one step only erases mask pixels |
| Projectiles.StoppedShotSpawns | src/invaders.c:776-787 | a live shot the shields stop is switched off in its slot and one impact explosion is requested at its contact point |
| Projectiles.IterateSplits | src/invaders.c:749-795 | running the slot loop from `k` to `n` is running it to `j`, then on to `n` |
| Projectiles.IterateFixed | src/invaders.c:749-795 | loop iterations that each leave the state alone leave it alone together |
| Projectiles.ResolverKeeps | src/invaders.c:749-795 | a run of the loop keeps the sizes, which shields are active, every shot outside the run and each shot's position; shots only disappear |
| Projectiles.PassStep | src/invaders.c:749-795 | the pass from slot `k` is shot `k` resolved, then the pass from `k + 1` |
| Projectiles.PassSplits | src/invaders.c:749-795 | the pass is the pass up to slot `j`, then the pass from `j` on |
| Projectiles.FirstShotOutcome | src/invaders.c:749-795 | the first shot the pass looks at survives exactly when it is live and the shields as they stand do not stop it |
| Projectiles.ShotOutcome | src/invaders.c:749-795 | shot `j` survives the pass exactly when it was live and the shields, as the shots before it left them, do not stop it |
| Projectiles.PassErases | src/invaders.c:749-795 | the whole pass only erases mask pixels |
| Projectiles.FirstSurvivorClear | src/invaders.c:749-795 | the first shot, if it survives, is not stopped by the shields the whole pass leaves behind |
| Projectiles.PassSurvivorClear | src/invaders.c:749-795 | any shot the pass lets through is not stopped by the final shields either |
| Projectiles.PassSurvivorsClear | src/invaders.c:749-795 | every surviving shot is clear of the final shields |
| Projectiles.FirstBlockedShotStops | src/invaders.c:749-795 | the first live shot in slot order that the shields block at the start of the pass is removed by it |
| Projectiles.ShotsVsShields | src/invaders.c:749-795 | the slot loop leaves the slots before its start alone, keeps every shot's position and which shields are active, and shots only disappear |
| Projectiles.MoveAlienShots | src/invaders.c:798-818 | every live enemy shot falls 4 and is gone exactly when below the screen; idle slots are untouched |
| Projectiles.UpdateBullets | src/invaders.c:740-819 | only the cannon's shot, enemy shots, shield masks and explosions change; the masks only lose pixels; every enemy shot left live was live, was not stopped by the shields the shield loop left and fell by 4; the invariants hold |
| Collisions.FirstAlienHit | src/invaders.c:1004-1026 | the first live alien in grid order that the shot overlaps, or none exactly when no live alien is overlapped |
| Collisions.SpeedUp | src/invaders.c:1021-1022 | the new wait is `max(0.05, 0.97 * old)` |
| Collisions.SpeedUpProgress | src/invaders.c:1021-1022 | above the floor each kill strictly shortens the wait; at the floor it stays there |
| Collisions.KillAlien | src/invaders.c:1008-1023 | only the hit alien dies, the live count drops by one and still counts the live aliens, its points are scored and the high score raised to the score when behind, the swarm speeds up and an explosion spawns on it; wave, pause and game-over flags are untouched |
| Collisions.ShootUfo | src/invaders.c:1028-1041 | the shot is gone, the saucer explodes for 0.5 s, 200 points are scored and the high score raised to the score when behind; nothing else changes |
| Collisions.ResolvePlayerShot | src/invaders.c:999-1067 | aliens, then the saucer, then the shields: the first match consumes the shot and skips the rest (a shield hit leaves score and high score alone); a shot matching nothing flies on |
| Collisions.FirstShotHit | src/invaders.c:1074-1085 | the first live enemy shot in slot order touching the cannon, or none |
| Collisions.ResolveShotsVsPlayer | src/invaders.c:1072-1087 | unless the cannon is exploding, the first touching shot is removed and starts a 1 s death explosion; nothing else changes |
| Collisions.OneShotPerPlayerHit | src/invaders.c:1079-1083 | the cannon consumes at most one enemy shot per frame |
| Collisions.ResolveShotsVsShields | src/invaders.c:1090-1116 | only shots, masks and explosions change; shots only disappear; masks only lose pixels; every shot still live is blocked by none of the shields the pass leaves behind |
| Collisions.EnemyShotVsShields | src/invaders.c:1090-1116 | enemy shot `j` survives exactly when it was live and the shields, as the shots before it left them, do not block it |
| Collisions.FirstBlockedEnemyShotRemoved | src/invaders.c:1090-1116 | the first live enemy shot that a shield blocks at the start of the pass is removed |
| Collisions.ConsumedShotSkipsShields | src/invaders.c:1090-1092 | a shot consumed by the cannon is left alone by the shield pass of the same frame |
| Collisions.CheckCollisions | src/invaders.c:996-1122 | the resolver keeps the invariants, kills at most one alien and never lowers the score |
| Session.PauseGateAsWritten | src/invaders.c:565-571 | the gate as written leaves the game paused only if it was paused with no press, and skips the frame exactly when the flag and the press differ |
| Session.PauseNeverEngagesAsWritten | src/invaders.c:565-571 | from a running game no sequence of presses ever pauses it |
| Session.PressInRunningGameIsLost | src/invaders.c:565-571 | a press in a running game skips one frame and leaves the game running |
| Session.PauseGate | src/invaders.c:565-571 | the corrected gate toggles the flag on a press and skips the frame exactly while paused |
| Session.PauseGateToggles | src/invaders.c:565-571 | a press pauses a running game, the next resumes it, no press leaves the flag alone |
| Session.InitGame | src/invaders.c:433-482 | a restart gives wave 1, score 0, three lives, a home cannon without shot, empty pools, the swarm rebuilt exactly as `Swarm.InitAliens` builds wave 1, fresh shields and an idle saucer, keeps the high score and the saucer's `exploding` flag |
| Session.StaleExplosionFlagHarmless | src/invaders.c:467-469 | the saucer's stale `exploding` flag after a restart can neither be hit nor survive its next entry |
| Session.NextLevel | src/invaders.c:1181-1199 | the wave advances by one with the swarm rebuilt exactly as `Swarm.InitAliens` builds the new wave (home grid, moving right, fresh timers), the cannon home without its shot, all enemy shots cleared, a new saucer timer and fresh shields; score and explosions carry over |
| Session.NextWaveIsFaster | src/invaders.c:525 | each new wave starts its march faster than the previous wave |
| Session.Trample | src/invaders.c:632-641 | each active shield a live alien overlaps is damaged at the alien's foot; the three stamps equal one; others unchanged |
| Session.LoseScan | src/invaders.c:623-643 | the game ends exactly when some live alien's lower edge has reached the cannon's top; only shield masks and the flag change, and the masks only lose pixels |
| Session.TrampleErases | src/invaders.c:632-641 | trampling only makes mask pixels transparent |
| Session.LoseScanSpares | src/invaders.c:623-643 | a shield that no live alien scanned before the first one at the cannon's line overlaps keeps its mask |
| Session.LoseScanClearsFeet | src/invaders.c:623-643 | each live alien scanned before the first one at the cannon's line leaves every active shield it overlaps transparent at its foot |
| Session.Advance | src/invaders.c:575-615 | moving everything keeps the invariants and the score, and ends the game exactly when the last life runs out |
| Session.WinCheck | src/invaders.c:619-621 | a cleared wave (no live alien, no saucer, cannon not exploding) starts the next wave; otherwise nothing changes |
| Session.Resolve | src/invaders.c:616-643 | the wave advances exactly when the cleared-wave condition holds after the collisions, and then the grid is full and all shots gone |
| Session.Simulate | src/invaders.c:573-643 | a frame keeps the invariants, never lowers the score, costs at most one life, advances at most one wave and ends the game exactly on the last life or an alien at the cannon's line |
| Session.UpdateGameAsWritten | src/invaders.c:556-644 | the frame as written: a finished game waits for the restart key; a press in a running game leaves it unchanged and running; a paused game without a press is unchanged; a press in a paused game resumes it and simulates the frame; the game is never paused after a frame that started running |
| Session.UpdateGame | src/invaders.c:556-644 | with the corrected pause gate of the Findings row: a finished game waits for the restart key; a paused game without a press is unchanged; a press in a running game pauses it; otherwise one frame is simulated; the high score never falls |
| Session.UpdateGameDiffersOnlyOnPress | src/invaders.c:565-571 | the as-written and corrected frames agree unless a pause press reaches a running game (a resume press in a paused game gives the same frame); a press in a running game is lost as written and pauses it when corrected |
| Session.ScoreNeverFallsInPlay | src/invaders.c:573-643 | while playing, a frame never lowers the score and advances the wave by at most one |

## Left out

- Rendering, audio, window and resource management, and the screen-sequencing shell: they are I/O. The title screen's own partial reset is not modelled.
- Input queries and `GetFrameTime`: the frame's keys, mouse and touch input, and `delta`, are parameters.
- `GetRandomValue`: every draw is a parameter (`Session.Draws`). Only the shooter draws carry their range as a precondition, because they index the grid.
- The texture read-back and upload around the shield mask: the render texture holds the base image upside down, so the model stores the mask row-flipped (`Shields.FlipRows`) and reads and writes it directly; the `LoadImageFromTexture` / `UpdateTexture` calls themselves are not modelled.
- IEEE-754 `float` rounding: arithmetic is exact over the reals. The distance test `sqrt(d) <= 5` is stated as `d <= 25`, which is the same over the reals.
- Per-slot enemy-shot size and speed: every slot gets the same values at start and they never change, so all enemy shots share one size and the fixed speed 4.
- The time-based animation of enemy shots and the saucer's sound cadence (`fmodf` of its active time). `timeActive` is still kept as state.
- The `UNIT_TEST` helpers, the `#if 0` blocks and the never-called `ResetLevel`.
- Collisions.CheckCollisions: its own contract gives the frame-level summary (invariants, at most one kill, score monotone); the per-chain outcomes are stated on `ResolvePlayerShot`, `ResolveShotsVsPlayer`, `ResolveShotsVsShields`, `EnemyShotVsShields` and `FirstBlockedEnemyShotRemoved`, and each shot's step on `Projectiles.ResolveShotOutcome`.
- Swarm.UpdateAliens: its own contract gives the summary (invariants, live flags, at most one new shot); the exact march and shooting outcomes are stated on `MoveTick`, `March` and `ShootTick`.
- Session.UpdateGame: uses the corrected pause gate of the Findings row; `Session.UpdateGameAsWritten` is the frame as written. On a restart its contract lists the main fields; the full restart state is stated on `InitGame`.
- Projectiles.ShotsVsShields: the number of explosions a pass spawns is not stated as a total; each stopped shot's own spawn is stated on `ResolveShotOutcome` and `StoppedShotSpawns`.
- Session.Resolve: after a wave change the shields may already be trampled by the lose scan in the same frame, so it does not state them; `NextLevel` does.

## Findings

| source | as written | input that shows it | evidently intended | confidence | as-written member | corrected member |
|---|---|---|---|---|---|---|
| src/invaders.c:565-571 | the pause key is tested twice in one frame; both tests see the same press, so a press in a running game sets the pause flag and then clears it again | a running game (`paused == false`) and the pause key pressed: the frame is skipped and the game stays running, so it can never be paused | a press toggles the pause flag once, and the frame is skipped exactly while paused | high (not executed) | Session.PressInRunningGameIsLost, Session.UpdateGameAsWritten | Session.PauseGate, Session.UpdateGame |

=== FILE: basics.dfy ===
/** Small building blocks shared by every component of the simulation:
    an optional value, the "first index whose flag is set" search that every
    first-match scan in the game reduces to, and the two-step clamp the game
    uses for mask coordinates and for the player's position. */
module Basics {

  datatype Option<T> = None | Some(value: T)

  /** Index of the first `true` in `flags`, scanning in index order. */
  function FirstTrue(flags: seq<bool>): (r: Option<nat>)
    ensures r.Some? ==> r.value < |flags| && flags[r.value]
    ensures r.Some? ==> forall j :: 0 <= j < r.value ==> !flags[j]
    ensures r.None? <==> forall j :: 0 <= j < |flags| ==> !flags[j]
  {
    FirstTrueFrom(flags, 0)
  }

  function FirstTrueFrom(flags: seq<bool>, k: nat): (r: Option<nat>)
    requires k <= |flags|
    requires forall j :: 0 <= j < k ==> !flags[j]
    ensures r.Some? ==> k <= r.value < |flags| && flags[r.value]
    ensures r.Some? ==> forall j :: 0 <= j < r.value ==> !flags[j]
    ensures r.None? <==> forall j :: 0 <= j < |flags| ==> !flags[j]
    decreases |flags| - k
  {
    if k == |flags| then None
    else if flags[k] then Some(k)
    else FirstTrueFrom(flags, k + 1)
  }

  /** The clamp as the game writes it: first raise to `lo`, then lower to `hi`.
      When the range is empty (`hi < lo`) the second step wins. */
  function Clamp(v: real, lo: real, hi: real): (r: real)
    ensures lo <= hi ==> lo <= r <= hi
    ensures lo <= v <= hi ==> r == v
    ensures v < lo && lo <= hi ==> r == lo
    ensures v > hi || lo > hi ==> r == hi
  {
    var raised := if v < lo then lo else v;
    if raised > hi then hi else raised
  }
}

=== FILE: collisions.dfy ===
/** The per-frame collision resolver. It runs after everything has moved,
    in a fixed order: the player's shot against the aliens, then the saucer,
    then the shields (the first match ends the shot); enemy shots against the
    cannon (at most one hit per frame); enemy shots against the shields. */
module Collisions {
  import opened Basics
  import opened Geometry
  import opened Pool
  import opened Shields
  import opened Effects
  import opened Swarm
  import opened Saucer
  import opened Ship
  import opened World
  import opened Projectiles

  function AlienRect(a: Alien): Rect
  {
    RectAt(a.pos, a.size)
  }

  function PlayerShotRect(p: Player): Rect
  {
    RectAt(p.shotPos, p.shotSize)
  }

  /** The first live alien, in grid order, that the rectangle overlaps. */
  function FirstAlienHit(aliens: seq<Alien>, rect: Rect): (r: Option<nat>)
    ensures r.Some? ==>
      r.value < |aliens| && aliens[r.value].active && Overlaps(rect, AlienRect(aliens[r.value]))
    ensures r.Some? ==> forall j :: 0 <= j < r.value ==>
      !(aliens[j].active && Overlaps(rect, AlienRect(aliens[j])))
    ensures r.None? <==> forall j :: 0 <= j < |aliens| ==>
      !(aliens[j].active && Overlaps(rect, AlienRect(aliens[j])))
  {
    var hits := seq(|aliens|, i requires 0 <= i < |aliens| =>
      aliens[i].active && Overlaps(rect, AlienRect(aliens[i])));
    assert forall j :: 0 <= j < |aliens| ==>
      hits[j] == (aliens[j].active && Overlaps(rect, AlienRect(aliens[j])));
    FirstTrue(hits)
  }

  /** The march wait after a kill: 3% shorter, but never below 0.05 s. */
  function SpeedUp(w: real): (r: real)
    ensures r >= MinWaitTime && r >= SpeedupFactor * w
    ensures r == MinWaitTime || r == SpeedupFactor * w
  {
    var v := w * SpeedupFactor;
    if v < MinWaitTime then MinWaitTime else v
  }

  /** Once at or above the floor, the wait never leaves it and a kill never
      slows the swarm down; above the floor every kill strictly speeds it up. */
  lemma SpeedUpProgress(w: real)
    requires w >= MinWaitTime
    ensures MinWaitTime <= SpeedUp(w) <= w
    ensures w > MinWaitTime ==> SpeedUp(w) < w
    ensures w == MinWaitTime ==> SpeedUp(w) == MinWaitTime
  {
  }

  /** The player's shot kills alien `i`: the shot and the alien are gone, one
      fewer alien is alive, its points are scored, the swarm speeds up and an
      explosion is spawned on the alien. */
  function KillAlien(g: Game, i: nat, sp: Sprites): (r: Game)
    requires Inv(g) && i < |g.swarm.aliens| && g.swarm.aliens[i].active
    ensures Inv(r)
    ensures r.swarm == g.swarm.(aliens := g.swarm.aliens[i := g.swarm.aliens[i].(active := false)],
                                alive := g.swarm.alive - 1,
                                waitTime := SpeedUp(g.swarm.waitTime))
    ensures r.swarm.alive == CountAlive(r.swarm.aliens)
    ensures r.score == g.score + Points(g.swarm.aliens[i].tier)
    ensures r.hiScore == (if r.score > g.hiScore then r.score else g.hiScore)
    ensures r.wave == g.wave && r.gameOver == g.gameOver && r.paused == g.paused
    ensures r.player == g.player.(shotActive := false)
    ensures r.ufo == g.ufo && r.shields == g.shields && r.alienShots == g.alienShots
    ensures r.blasts == SpawnExplosion(g.blasts, Center(g.swarm.aliens[i].pos, g.swarm.aliens[i].size),
                                       sp.alienBlastSize, AlienExplosion)
  {
    var a := g.swarm.aliens[i];
    var aliens := g.swarm.aliens[i := a.(active := false)];
    CountAliveKill(g.swarm.aliens, i);
    var g1 := g.(player := g.player.(shotActive := false),
                 swarm := g.swarm.(aliens := aliens, alive := g.swarm.alive - 1,
                                   waitTime := SpeedUp(g.swarm.waitTime)),
                 blasts := SpawnExplosion(g.blasts, Center(a.pos, a.size), sp.alienBlastSize, AlienExplosion));
    WithScore(g1, g.score + Points(a.tier))
  }

  /** The player's shot hits the saucer: the shot is gone, the saucer starts
      exploding and 200 points are scored. */
  function ShootUfo(g: Game): (r: Game)
    requires Inv(g)
    ensures Inv(r)
    ensures r.ufo == HitUfo(g.ufo) && r.ufo.exploding && r.ufo.explosionTimer == UfoBlastTime
    ensures r.score == g.score + UfoPoints
    ensures r.hiScore == (if r.score > g.hiScore then r.score else g.hiScore)
    ensures r.wave == g.wave && r.gameOver == g.gameOver && r.paused == g.paused
    ensures r.player == g.player.(shotActive := false)
    ensures r.swarm == g.swarm && r.shields == g.shields && r.alienShots == g.alienShots
    ensures r.blasts == g.blasts
  {
    WithScore(g.(player := g.player.(shotActive := false), ufo := HitUfo(g.ufo)), g.score + UfoPoints)
  }

  /** Where the player's shot touches a shield: the middle of its top edge. */
  function ShotTop(p: Player): Vec2
  {
    Vec2(p.shotPos.x + p.shotSize.x * 0.5, p.shotPos.y)
  }

  /** The saucer can be shot: present and not already exploding. */
  predicate UfoHittable(u: Ufo)
  {
    u.active && !u.exploding
  }

  /** The player's shot chain: aliens first, then the saucer, then the
      shields; the first match consumes the shot and ends the chain, and a shot
      that matches nothing flies on. */
  function ResolvePlayerShot(g: Game, sp: Sprites): (r: Game)
    requires Inv(g)
    ensures Inv(r)
    ensures r.alienShots == g.alienShots && r.wave == g.wave
    ensures r.gameOver == g.gameOver && r.paused == g.paused
    ensures r.player == g.player.(shotActive := r.player.shotActive)
    ensures !g.player.shotActive ==> r == g
    ensures g.player.shotActive ==>
      var rect := PlayerShotRect(g.player);
      match FirstAlienHit(g.swarm.aliens, rect)
      case Some(i) => r == KillAlien(g, i, sp)
      case None =>
        if UfoHittable(g.ufo) && Overlaps(rect, RectAt(g.ufo.pos, g.ufo.size)) then r == ShootUfo(g)
        else match FirstBlocking(g.shields, rect, ShotTop(g.player))
             case Some(s) =>
               && !r.player.shotActive && r.score == g.score && r.hiScore == g.hiScore
               && r.swarm == g.swarm && r.ufo == g.ufo
               && r.shields == Strike(g.shields, s, ShotTop(g.player))
               && r.blasts == SpawnExplosion(g.blasts, ShotTop(g.player), sp.playerImpactSize, ShotExplosion)
             case None => r == g
  {
    if !g.player.shotActive then g
    else
      var rect := PlayerShotRect(g.player);
      match FirstAlienHit(g.swarm.aliens, rect)
      case Some(i) => KillAlien(g, i, sp)
      case None =>
        if UfoHittable(g.ufo) && Overlaps(rect, RectAt(g.ufo.pos, g.ufo.size)) then ShootUfo(g)
        else
          var contact := ShotTop(g.player);
          match FirstBlocking(g.shields, rect, contact)
          case Some(s) =>
            g.(player := g.player.(shotActive := false),
               shields := Strike(g.shields, s, contact),
               blasts := SpawnExplosion(g.blasts, contact, sp.playerImpactSize, ShotExplosion))
          case None => g
  }

  /** The first live enemy shot, in slot order, overlapping `target`. */
  function FirstShotHit(shots: seq<Slot<Vec2>>, shotSize: Vec2, target: Rect): (r: Option<nat>)
    ensures r.Some? ==>
      r.value < |shots| && shots[r.value].active && Overlaps(RectAt(shots[r.value].item, shotSize), target)
    ensures r.Some? ==> forall j :: 0 <= j < r.value ==>
      !(shots[j].active && Overlaps(RectAt(shots[j].item, shotSize), target))
    ensures r.None? <==> forall j :: 0 <= j < |shots| ==>
      !(shots[j].active && Overlaps(RectAt(shots[j].item, shotSize), target))
  {
    var hits := seq(|shots|, i requires 0 <= i < |shots| =>
      shots[i].active && Overlaps(RectAt(shots[i].item, shotSize), target));
    assert forall j :: 0 <= j < |shots| ==>
      hits[j] == (shots[j].active && Overlaps(RectAt(shots[j].item, shotSize), target));
    FirstTrue(hits)
  }

  /** Enemy shots against the cannon, unless it is already exploding: the
      first shot in slot order that touches it is removed and starts the
      death explosion; no other shot is consumed this frame. */
  function ResolveShotsVsPlayer(g: Game, sp: Sprites): (r: Game)
    requires Inv(g)
    ensures Inv(r)
    ensures r == g.(alienShots := r.alienShots, player := r.player)
    ensures g.player.explosionTimer > 0.0 ==> r == g
    ensures g.player.explosionTimer <= 0.0 ==>
      match FirstShotHit(g.alienShots, sp.alienShotSize, RectAt(g.player.pos, g.player.size))
      case Some(k) =>
        && r.alienShots == g.alienShots[k := g.alienShots[k].(active := false)]
        && r.player == g.player.(explosionTimer := DeathTime)
      case None => r == g
  {
    if g.player.explosionTimer > 0.0 then g
    else
      match FirstShotHit(g.alienShots, sp.alienShotSize, RectAt(g.player.pos, g.player.size))
      case Some(k) =>
        g.(alienShots := g.alienShots[k := g.alienShots[k].(active := false)],
           player := g.player.(explosionTimer := DeathTime))
      case None => g
  }

  /** Enemy shots against the shields, every live shot in slot order, each
      stopped by the first shield that blocks it. The masks only lose pixels,
      and every shot still live afterwards is blocked by none of the shields
      the pass leaves behind. */
  function ResolveShotsVsShields(g: Game, sp: Sprites): (r: Game)
    requires Inv(g)
    ensures Inv(r)
    ensures r == g.(alienShots := r.alienShots, shields := r.shields, blasts := r.blasts)
    ensures forall j :: 0 <= j < |r.alienShots| ==>
      r.alienShots[j].item == g.alienShots[j].item
      && (r.alienShots[j].active ==> g.alienShots[j].active)
    ensures ErasedFrom(g.shields, r.shields)
    ensures forall j :: 0 <= j < |r.alienShots| && r.alienShots[j].active ==>
      !Stopped(r.shields, r.alienShots[j].item, sp.alienShotSize, false)
  {
    var start := ShieldPass(g.alienShots, g.shields, g.blasts);
    PassErases(start, 0, sp.alienShotSize, sp.alienImpactSize, false);
    PassSurvivorsClear(start, 0, sp.alienShotSize, sp.alienImpactSize, false);
    var p := ShotsVsShields(start, 0, sp.alienShotSize, sp.alienImpactSize, false);
    g.(alienShots := p.shots, shields := p.shields, blasts := p.blasts)
  }

  /** Enemy shot `j` survives the shield pass exactly when it was live and the
      shields, as the shots before it in slot order left them, do not block it. */
  lemma EnemyShotVsShields(g: Game, sp: Sprites, j: nat)
    requires Inv(g) && j < |g.alienShots|
    ensures var before := PassUntil(ShieldPass(g.alienShots, g.shields, g.blasts), 0, j,
                                    sp.alienShotSize, sp.alienImpactSize, false);
      ResolveShotsVsShields(g, sp).alienShots[j].active <==>
        g.alienShots[j].active && !Stopped(before.shields, g.alienShots[j].item, sp.alienShotSize, false)
  {
    ShotOutcome(ShieldPass(g.alienShots, g.shields, g.blasts), 0, j,
                sp.alienShotSize, sp.alienImpactSize, false);
  }

  /** The first live enemy shot, in slot order, that a shield blocks at the
      start of the pass is removed by it. */
  lemma FirstBlockedEnemyShotRemoved(g: Game, sp: Sprites, j: nat)
    requires Inv(g) && j < |g.alienShots|
    requires g.alienShots[j].active && Stopped(g.shields, g.alienShots[j].item, sp.alienShotSize, false)
    requires forall i :: 0 <= i < j && g.alienShots[i].active ==>
      !Stopped(g.shields, g.alienShots[i].item, sp.alienShotSize, false)
    ensures !ResolveShotsVsShields(g, sp).alienShots[j].active
  {
    FirstBlockedShotStops(ShieldPass(g.alienShots, g.shields, g.blasts), 0, j,
                          sp.alienShotSize, sp.alienImpactSize, false);
  }

  /** A shot consumed by the cannon is no longer live when the shield pass
      reaches it, so it cannot also damage a shield in the same frame. */
  lemma ConsumedShotSkipsShields(g: Game, sp: Sprites, k: nat)
    requires Inv(g) && g.player.explosionTimer <= 0.0
    requires FirstShotHit(g.alienShots, sp.alienShotSize, RectAt(g.player.pos, g.player.size)) == Some(k)
    ensures var g1 := ResolveShotsVsPlayer(g, sp);
      !g1.alienShots[k].active
      && ResolveShot(ShieldPass(g1.alienShots, g1.shields, g1.blasts), k,
                     sp.alienShotSize, sp.alienImpactSize, false)
         == ShieldPass(g1.alienShots, g1.shields, g1.blasts)
  {
  }

  /** The cannon consumes at most one enemy shot per frame. */
  lemma OneShotPerPlayerHit(g: Game, sp: Sprites)
    requires Inv(g)
    ensures var r := ResolveShotsVsPlayer(g, sp);
      CountActive(g.alienShots) - 1 <= CountActive(r.alienShots) <= CountActive(g.alienShots)
  {
    var r := ResolveShotsVsPlayer(g, sp);
    if g.player.explosionTimer <= 0.0 {
      match FirstShotHit(g.alienShots, sp.alienShotSize, RectAt(g.player.pos, g.player.size))
      case Some(k) =>
        CountActiveUpdate(g.alienShots, k, g.alienShots[k].(active := false));
      case None =>
    }
  }

  /** The whole resolver. */
  function CheckCollisions(g: Game, sp: Sprites): (r: Game)
    requires Inv(g)
    ensures Inv(r)
    ensures r.wave == g.wave && r.gameOver == g.gameOver && r.paused == g.paused
    ensures r.player.lives == g.player.lives && r.player.pos == g.player.pos
    ensures r.swarm.alive == g.swarm.alive || r.swarm.alive == g.swarm.alive - 1
    ensures g.score <= r.score
  {
    ResolveShotsVsShields(ResolveShotsVsPlayer(ResolvePlayerShot(g, sp), sp), sp)
  }
}

=== FILE: effects.dfy ===
/** Explosion effects: a pool of ten short-lived sprites, created by kills and
    impacts and removed when their lifetime runs out. */
module Effects {
  import opened Geometry
  import opened Pool

  const MaxExplosions: nat := 10
  /** Seconds an explosion stays on screen. */
  const BlastLifetime: real := 0.3

  /** Which sprite the explosion shows (an alien kill or a shot impact). */
  datatype BlastKind = AlienExplosion | ShotExplosion

  /** `pos` is the top-left corner of the sprite, `timer` the remaining lifetime. */
  datatype Blast = Blast(pos: Vec2, size: Vec2, kind: BlastKind, timer: real)

  /** An explosion of `size` centred on `center`, with its full lifetime. */
  function NewBlast(center: Vec2, size: Vec2, kind: BlastKind): (b: Blast)
    ensures Center(b.pos, b.size) == center && b.size == size && b.kind == kind
    ensures b.timer == BlastLifetime
  {
    Blast(Vec2(center.x - size.x / 2.0, center.y - size.y / 2.0), size, kind, BlastLifetime)
  }

  /** Spawn an explosion centred on `center` into the first free slot; a full
      pool drops the request. */
  function SpawnExplosion(pool: seq<Slot<Blast>>, center: Vec2, size: Vec2, kind: BlastKind)
    : (r: seq<Slot<Blast>>)
    ensures |r| == |pool|
    ensures CountActive(pool) == |pool| ==> r == pool
    ensures CountActive(pool) < |pool| ==> CountActive(r) == CountActive(pool) + 1
    ensures forall j :: 0 <= j < |r| && r[j] != pool[j] ==>
      !pool[j].active && r[j] == Slot(true, NewBlast(center, size, kind))
    ensures FirstFree(pool).Some? ==>
      r == pool[FirstFree(pool).value := Slot(true, NewBlast(center, size, kind))]
  {
    CountActiveBound(pool);
    AcquireCount(pool, NewBlast(center, size, kind));
    Acquire(pool, NewBlast(center, size, kind))
  }

  /** One slot's countdown: an active explosion loses `delta` seconds and
      ends once its timer is no longer positive. */
  function TickBlast(s: Slot<Blast>, delta: real): Slot<Blast>
  {
    if !s.active then s
    else
      var t := s.item.timer - delta;
      Slot(t > 0.0, s.item.(timer := t))
  }

  /** Count every explosion down by the frame time. */
  function UpdateExplosions(pool: seq<Slot<Blast>>, delta: real): (r: seq<Slot<Blast>>)
    ensures |r| == |pool|
    ensures forall j :: 0 <= j < |r| && !pool[j].active ==> r[j] == pool[j]
    ensures forall j :: 0 <= j < |r| && pool[j].active ==>
      r[j].item == pool[j].item.(timer := pool[j].item.timer - delta)
    ensures forall j :: 0 <= j < |r| ==>
      (r[j].active <==> pool[j].active && pool[j].item.timer - delta > 0.0)
  {
    seq(|pool|, i requires 0 <= i < |pool| => TickBlast(pool[i], delta))
  }

  /** Every live explosion has some, but never more than its full, lifetime left. */
  predicate LiveTimers(pool: seq<Slot<Blast>>)
  {
    forall j :: 0 <= j < |pool| && pool[j].active ==>
      0.0 < pool[j].item.timer <= BlastLifetime
  }

  /** Spawning and counting down keep every live explosion's remaining
      lifetime within (0, 0.3], and a frame never adds explosions. */
  lemma ExplosionLifecycle(pool: seq<Slot<Blast>>, center: Vec2, size: Vec2, kind: BlastKind,
                           delta: real)
    requires LiveTimers(pool) && delta >= 0.0
    ensures LiveTimers(SpawnExplosion(pool, center, size, kind))
    ensures LiveTimers(UpdateExplosions(pool, delta))
    ensures CountActive(UpdateExplosions(pool, delta)) <= CountActive(pool)
  {
    CountActiveMonotone(pool, UpdateExplosions(pool, delta));
  }
}

=== FILE: geometry.dfy ===
/** World-space geometry of the play field: points, axis-aligned rectangles
    and the rectangle overlap test every collision in the game relies on. */
module Geometry {

  const ScreenWidth: real := 800.0
  const ScreenHeight: real := 600.0

  datatype Vec2 = Vec2(x: real, y: real)

  /** x, y is the top-left corner; y grows downwards. */
  datatype Rect = Rect(x: real, y: real, w: real, h: real)

  function RectAt(pos: Vec2, size: Vec2): Rect
  {
    Rect(pos.x, pos.y, size.x, size.y)
  }

  /** raylib's rectangle collision: the open extents overlap on both axes,
      so rectangles that only share an edge do not collide. */
  predicate Overlaps(a: Rect, b: Rect)
  {
    a.x < b.x + b.w && a.x + a.w > b.x && a.y < b.y + b.h && a.y + a.h > b.y
  }

  /** Centre of the rectangle spanned at `pos` by `size`. */
  function Center(pos: Vec2, size: Vec2): Vec2
  {
    Vec2(pos.x + size.x / 2.0, pos.y + size.y / 2.0)
  }
}

=== FILE: pool.dfy ===
/** A fixed-capacity pool of reusable slots, the storage the game uses for
    enemy shots and explosion effects. Spawning takes the first inactive slot
    in index order; when every slot is in use the spawn is dropped silently. */
module Pool {
  import opened Basics

  datatype Slot<T> = Slot(active: bool, item: T)

  /** The first inactive slot, if any. */
  function FirstFree<T>(pool: seq<Slot<T>>): (r: Option<nat>)
    ensures r.Some? ==> r.value < |pool| && !pool[r.value].active
    ensures r.Some? ==> forall j :: 0 <= j < r.value ==> pool[j].active
    ensures r.None? <==> forall j :: 0 <= j < |pool| ==> pool[j].active
  {
    var free := seq(|pool|, i requires 0 <= i < |pool| => !pool[i].active);
    assert forall j :: 0 <= j < |pool| ==> free[j] == !pool[j].active;
    FirstTrue(free)
  }

  /** Spawn `item` into the pool: exactly the lowest-index inactive slot
      becomes active and holds `item`; a full pool is returned unchanged. */
  function Acquire<T>(pool: seq<Slot<T>>, item: T): (r: seq<Slot<T>>)
    ensures |r| == |pool|
    ensures (forall j :: 0 <= j < |pool| ==> pool[j].active) ==> r == pool
    ensures (exists j :: 0 <= j < |pool| && !pool[j].active) ==>
      exists i :: 0 <= i < |pool| && !pool[i].active
        && (forall j :: 0 <= j < i ==> pool[j].active)
        && r == pool[i := Slot(true, item)]
  {
    match FirstFree(pool)
    case Some(i) => pool[i := Slot(true, item)]
    case None => pool
  }

  /** Number of slots in use. */
  function CountActive<T>(pool: seq<Slot<T>>): nat
  {
    if |pool| == 0 then 0
    else (if pool[0].active then 1 else 0) + CountActive(pool[1..])
  }

  /** The pool is full exactly when every slot is in use. */
  lemma {:induction false} CountActiveBound<T>(pool: seq<Slot<T>>)
    ensures CountActive(pool) <= |pool|
    ensures CountActive(pool) == |pool| <==> forall j :: 0 <= j < |pool| ==> pool[j].active
  {
    if |pool| > 0 {
      var rest := pool[1..];
      CountActiveBound(rest);
      assert forall j :: 0 <= j < |rest| ==> rest[j] == pool[j + 1];
      assert (forall j :: 0 <= j < |pool| ==> pool[j].active) <==>
        pool[0].active && forall j :: 0 <= j < |rest| ==> rest[j].active;
    }
  }

  /** Changing one slot's active flag moves the count by exactly one. */
  lemma {:induction false} CountActiveUpdate<T>(pool: seq<Slot<T>>, i: nat, s: Slot<T>)
    requires i < |pool|
    ensures CountActive(pool[i := s]) ==
      CountActive(pool) - (if pool[i].active then 1 else 0) + (if s.active then 1 else 0)
  {
    if i == 0 {
      assert pool[i := s][1..] == pool[1..];
    } else {
      assert pool[i := s][1..] == pool[1..][i - 1 := s];
      CountActiveUpdate(pool[1..], i - 1, s);
    }
  }

  /** A spawn adds one slot in use unless the pool was already full. */
  lemma AcquireCount<T>(pool: seq<Slot<T>>, item: T)
    ensures CountActive(Acquire(pool, item)) ==
      if CountActive(pool) < |pool| then CountActive(pool) + 1 else CountActive(pool)
  {
    CountActiveBound(pool);
    match FirstFree(pool)
    case Some(i) => CountActiveUpdate(pool, i, Slot(true, item));
    case None =>
  }

  /** Spawn each of `items` in turn. */
  function AcquireEach<T>(pool: seq<Slot<T>>, items: seq<T>): (r: seq<Slot<T>>)
    ensures |r| == |pool|
    decreases |items|
  {
    if |items| == 0 then pool else AcquireEach(Acquire(pool, items[0]), items[1..])
  }

  /** Capacity: a run of spawn requests fills the pool up to its capacity and
      no further, whatever its length. */
  lemma {:induction false} AcquireEachCount<T>(pool: seq<Slot<T>>, items: seq<T>)
    ensures CountActive(AcquireEach(pool, items)) ==
      if CountActive(pool) + |items| <= |pool| then CountActive(pool) + |items| else |pool|
    decreases |items|
  {
    CountActiveBound(pool);
    if |items| > 0 {
      AcquireCount(pool, items[0]);
      AcquireEachCount(Acquire(pool, items[0]), items[1..]);
    }
  }

  /** Once the pool is full further spawns change nothing. */
  lemma {:induction false} AcquireEachFull<T>(pool: seq<Slot<T>>, items: seq<T>)
    requires forall j :: 0 <= j < |pool| ==> pool[j].active
    ensures AcquireEach(pool, items) == pool
    decreases |items|
  {
    if |items| > 0 {
      AcquireEachFull(pool, items[1..]);
    }
  }

  /** The pool with every slot released; payloads are left as they were. */
  function Cleared<T>(pool: seq<Slot<T>>): (r: seq<Slot<T>>)
    ensures |r| == |pool|
    ensures forall j :: 0 <= j < |r| ==> r[j] == pool[j].(active := false)
  {
    seq(|pool|, i requires 0 <= i < |pool| => pool[i].(active := false))
  }

  lemma {:induction false} ClearedCount<T>(pool: seq<Slot<T>>)
    ensures CountActive(Cleared(pool)) == 0
  {
    if |pool| > 0 {
      assert Cleared(pool)[1..] == Cleared(pool[1..]);
      ClearedCount(pool[1..]);
    }
  }

  /** Starting from a cleared pool of capacity N, N + 1 spawn requests make
      exactly N slots active, and the last request is dropped. */
  lemma CapacityScenario<T>(pool: seq<Slot<T>>, items: seq<T>)
    requires |items| == |pool| + 1
    ensures CountActive(AcquireEach(Cleared(pool), items[..|pool|])) == |pool|
    ensures AcquireEach(Cleared(pool), items) == AcquireEach(Cleared(pool), items[..|pool|])
  {
    var empty := Cleared(pool);
    ClearedCount(pool);
    AcquireEachCount(empty, items[..|pool|]);
    var full := AcquireEach(empty, items[..|pool|]);
    CountActiveBound(full);
    AcquireEachSplit(empty, items[..|pool|], items[|pool|..]);
    assert items[..|pool|] + items[|pool|..] == items;
    AcquireEachFull(full, items[|pool|..]);
  }

  lemma {:induction false} AcquireEachSplit<T>(pool: seq<Slot<T>>, a: seq<T>, b: seq<T>)
    ensures AcquireEach(pool, a + b) == AcquireEach(AcquireEach(pool, a), b)
    decreases |a|
  {
    if |a| > 0 {
      assert (a + b)[0] == a[0];
      assert (a + b)[1..] == a[1..] + b;
      AcquireEachSplit(Acquire(pool, a[0]), a[1..], b);
    } else {
      assert a + b == b;
    }
  }

  /** If no slot becomes active that was not before, the count cannot grow. */
  lemma {:induction false} CountActiveMonotone<T>(pool: seq<Slot<T>>, r: seq<Slot<T>>)
    requires |r| == |pool|
    requires forall j :: 0 <= j < |r| ==> r[j].active ==> pool[j].active
    ensures CountActive(r) <= CountActive(pool)
  {
    if |pool| > 0 {
      assert forall j :: 0 <= j < |r| - 1 ==> r[1..][j] == r[j + 1] && pool[1..][j] == pool[j + 1];
      CountActiveMonotone(pool[1..], r[1..]);
    }
  }
}

=== FILE: projectiles.dfy ===
/** Projectile motion for one frame: the player's shot rises, enemy shots
    are first tested against the shields and then fall, and shots that leave
    the screen are removed. */
module Projectiles {
  import opened Basics
  import opened Geometry
  import opened Pool
  import opened Shields
  import opened Effects
  import opened Ship
  import opened World

  /** Where an enemy shot touches what it hits: the middle of its lower edge. */
  function ShotContact(pos: Vec2, size: Vec2): (c: Vec2)
    ensures c.x == Center(pos, size).x && c.y == pos.y + size.y
  {
    Vec2(pos.x + size.x * 0.5, pos.y + size.y)
  }

  /** The shield an enemy shot is stopped by, if any. The collision pass
      takes the first shield that blocks it. The pass inside the bullet
      update (`stopAtOverlap`) looks only at the first active shield whose
      bounds it overlaps and stops there, even when the mask there is clear. */
  function ShieldTarget(shields: seq<Shield>, rect: Rect, contact: Vec2, stopAtOverlap: bool)
    : (r: Option<nat>)
    requires AllWellFormed(shields)
    ensures r.Some? ==> r.value < |shields| && Blocks(shields[r.value], rect, contact)
    ensures !stopAtOverlap ==> r == FirstBlocking(shields, rect, contact)
    ensures stopAtOverlap ==> r.Some? ==> r == FirstOverlapping(shields, rect)
    ensures stopAtOverlap ==>
      (r.Some? <==> FirstOverlapping(shields, rect).Some?
                    && Opaque(shields[FirstOverlapping(shields, rect).value], contact))
  {
    if !stopAtOverlap then FirstBlocking(shields, rect, contact)
    else match FirstOverlapping(shields, rect)
         case Some(s) => if Opaque(shields[s], contact) then Some(s) else None
         case None => None
  }

  /** The quirk of the bullet-update pass: when the first overlapped shield is
      clear at the contact point, the shot passes on, even if a later shield
      would have stopped it. */
  lemma StopAtOverlapPassesThrough(shields: seq<Shield>, rect: Rect, contact: Vec2, s: nat)
    requires AllWellFormed(shields)
    requires FirstOverlapping(shields, rect) == Some(s) && !Opaque(shields[s], contact)
    ensures ShieldTarget(shields, rect, contact, true) == None
    ensures FirstBlocking(shields, rect, contact).Some? ==>
      s < FirstBlocking(shields, rect, contact).value
  {
  }

  /** When a shot overlaps at most one active shield (as with a narrow shot
      and the spaced-out row) the two passes pick the same shield. */
  lemma PassesAgreeOnSingleOverlap(shields: seq<Shield>, rect: Rect, contact: Vec2)
    requires AllWellFormed(shields)
    requires forall i, j :: 0 <= i < j < |shields| ==>
      !(shields[i].active && Overlaps(rect, shields[i].bounds)
        && shields[j].active && Overlaps(rect, shields[j].bounds))
    ensures ShieldTarget(shields, rect, contact, true) == ShieldTarget(shields, rect, contact, false)
  {
    var b := FirstBlocking(shields, rect, contact);
    match FirstOverlapping(shields, rect)
    case Some(s) =>
      if b.Some? {
        assert b.value == s;
      }
    case None =>
  }

  /** The pass stops an enemy shot lying at `item`. */
  predicate Stopped(shields: seq<Shield>, item: Vec2, shotSize: Vec2, stopAtOverlap: bool)
    requires AllWellFormed(shields)
  {
    ShieldTarget(shields, RectAt(item, shotSize), ShotContact(item, shotSize), stopAtOverlap).Some?
  }

  /** Hits on the shields never make a shot stoppable that was not. */
  lemma ErasedNotStopped(a: seq<Shield>, b: seq<Shield>, item: Vec2, shotSize: Vec2, stopAtOverlap: bool)
    requires ErasedFrom(a, b) && !Stopped(a, item, shotSize, stopAtOverlap)
    ensures !Stopped(b, item, shotSize, stopAtOverlap)
  {
    var rect, contact := RectAt(item, shotSize), ShotContact(item, shotSize);
    if stopAtOverlap {
      ErasedSameOverlap(a, b, rect);
      match FirstOverlapping(a, rect)
      case Some(s) =>
        ErasedOpaque(a, b, s, contact);
      case None =>
    } else {
      ErasedUnblocked(a, b, rect, contact);
    }
  }

  /** The running state of a pass of enemy shots against the shields. */
  datatype ShieldPass = ShieldPass(shots: seq<Slot<Vec2>>, shields: seq<Shield>, blasts: seq<Slot<Blast>>)

  /** Resolve enemy shot `k` against the shields: on a hit the shot is
      removed, the shield is damaged at the contact point and an impact
      explosion is spawned there; otherwise nothing changes. */
  function ResolveShot(p: ShieldPass, k: nat, shotSize: Vec2, blastSize: Vec2, stopAtOverlap: bool)
    : (r: ShieldPass)
    requires AllWellFormed(p.shields) && k < |p.shots|
    ensures |r.shots| == |p.shots| && |r.shields| == |p.shields| && |r.blasts| == |p.blasts|
    ensures AllWellFormed(r.shields)
    ensures forall j :: 0 <= j < |r.shots| && j != k ==> r.shots[j] == p.shots[j]
    ensures forall j :: 0 <= j < |r.shields| ==> r.shields[j].active == p.shields[j].active
    ensures r.shots[k].item == p.shots[k].item
    ensures r.shots[k].active ==> r == p
  {
    var shot := p.shots[k];
    if !shot.active then p
    else
      var rect := RectAt(shot.item, shotSize);
      var contact := ShotContact(shot.item, shotSize);
      match ShieldTarget(p.shields, rect, contact, stopAtOverlap)
      case Some(s) =>
        ShieldPass(p.shots[k := shot.(active := false)],
                   Strike(p.shields, s, contact),
                   SpawnExplosion(p.blasts, contact, blastSize, ShotExplosion))
      case None => p
  }

  /** What one step does: a live shot that the shields stop is removed, the
      shield it meets is struck at the contact point and an impact explosion
      is spawned there; a dead or unstopped shot leaves everything as it was. */
  lemma ResolveShotOutcome(p: ShieldPass, k: nat, shotSize: Vec2, blastSize: Vec2, stopAtOverlap: bool)
    requires AllWellFormed(p.shields) && k < |p.shots|
    ensures var r := ResolveShot(p, k, shotSize, blastSize, stopAtOverlap);
      r.shots[k].active <==>
        p.shots[k].active && !Stopped(p.shields, p.shots[k].item, shotSize, stopAtOverlap)
    ensures var r := ResolveShot(p, k, shotSize, blastSize, stopAtOverlap);
      var rect := RectAt(p.shots[k].item, shotSize);
      var contact := ShotContact(p.shots[k].item, shotSize);
      match (if p.shots[k].active then ShieldTarget(p.shields, rect, contact, stopAtOverlap) else None)
      case Some(s) =>
        && r.shields == Strike(p.shields, s, contact)
        && r.blasts == SpawnExplosion(p.blasts, contact, blastSize, ShotExplosion)
      case None => r == p
  {
  }

  /** One step of the pass only erases mask pixels. */
  lemma ResolveShotErases(p: ShieldPass, k: nat, shotSize: Vec2, blastSize: Vec2, stopAtOverlap: bool)
    requires AllWellFormed(p.shields) && k < |p.shots|
    ensures ErasedFrom(p.shields, ResolveShot(p, k, shotSize, blastSize, stopAtOverlap).shields)
  {
    var shot := p.shots[k];
    var contact := ShotContact(shot.item, shotSize);
    match (if shot.active then ShieldTarget(p.shields, RectAt(shot.item, shotSize), contact, stopAtOverlap)
           else None)
    case Some(s) =>
      StrikeErases(p.shields, s, contact);
    case None =>
      ErasedFromRefl(p.shields);
  }

  /** A live shot the shields stop is switched off in place and one impact
      explosion is requested at its contact point. */
  lemma StoppedShotSpawns(p: ShieldPass, k: nat, shotSize: Vec2, blastSize: Vec2, stopAtOverlap: bool)
    requires AllWellFormed(p.shields) && k < |p.shots|
    requires p.shots[k].active && Stopped(p.shields, p.shots[k].item, shotSize, stopAtOverlap)
    ensures var r := ResolveShot(p, k, shotSize, blastSize, stopAtOverlap);
      && r.shots == p.shots[k := p.shots[k].(active := false)]
      && r.blasts == SpawnExplosion(p.blasts, ShotContact(p.shots[k].item, shotSize), blastSize, ShotExplosion)
  {
    ResolveShotOutcome(p, k, shotSize, blastSize, stopAtOverlap);
    var r := ResolveShot(p, k, shotSize, blastSize, stopAtOverlap);
    assert r.shots == p.shots[k := p.shots[k].(active := false)];
  }

  /** The step of the pass as a value: resolve shot `i` of `q`. An index
      past the last shot, or a malformed state, leaves the state alone; the
      pass reaches neither. */
  function Resolver(shotSize: Vec2, blastSize: Vec2, stopAtOverlap: bool): (ShieldPass, nat) -> ShieldPass
  {
    (q: ShieldPass, i: nat) =>
      if AllWellFormed(q.shields) && i < |q.shots| then ResolveShot(q, i, shotSize, blastSize, stopAtOverlap)
      else q
  }

  /** `step` applied to indexes `k`, `k + 1`, ..., `n - 1` in turn. */
  function Iterate(step: (ShieldPass, nat) -> ShieldPass, p: ShieldPass, k: nat, n: nat): ShieldPass
    decreases n - k
  {
    if n <= k then p else Iterate(step, step(p, k), k + 1, n)
  }

  /** Running steps `k` to `n` is running `k` to `j`, then `j` to `n`. */
  lemma {:induction false} IterateSplits(step: (ShieldPass, nat) -> ShieldPass, p: ShieldPass,
                                         k: nat, j: nat, n: nat)
    requires k <= j <= n
    ensures Iterate(step, p, k, n) == Iterate(step, Iterate(step, p, k, j), j, n)
    decreases j - k
  {
    if k < j {
      IterateSplits(step, step(p, k), k + 1, j, n);
    }
  }

  /** Steps that all leave a state alone leave it alone together. */
  lemma {:induction false} IterateFixed(step: (ShieldPass, nat) -> ShieldPass, p: ShieldPass, k: nat, n: nat)
    requires forall i :: k <= i < n ==> step(p, i) == p
    ensures Iterate(step, p, k, n) == p
    decreases n - k
  {
    if k < n {
      IterateFixed(step, p, k + 1, n);
    }
  }

  /** What resolving shots `k` to `n` keeps: the sizes, well-formed shields,
      which shields are active, every shot outside `k` to `n`, and each
      shot's position; a shot only ever disappears. */
  lemma {:induction false} ResolverKeeps(p: ShieldPass, k: nat, n: nat, shotSize: Vec2, blastSize: Vec2,
                                         stopAtOverlap: bool)
    requires AllWellFormed(p.shields) && k <= n <= |p.shots|
    ensures var r := Iterate(Resolver(shotSize, blastSize, stopAtOverlap), p, k, n);
      && |r.shots| == |p.shots| && |r.shields| == |p.shields| && |r.blasts| == |p.blasts|
      && AllWellFormed(r.shields)
      && (forall j :: 0 <= j < |r.shields| ==> r.shields[j].active == p.shields[j].active)
      && (forall j :: 0 <= j < |r.shots| && !(k <= j < n) ==> r.shots[j] == p.shots[j])
      && (forall j :: 0 <= j < |r.shots| ==>
            r.shots[j].item == p.shots[j].item && (r.shots[j].active ==> p.shots[j].active))
    decreases n - k
  {
    if k < n {
      var q := ResolveShot(p, k, shotSize, blastSize, stopAtOverlap);
      assert Resolver(shotSize, blastSize, stopAtOverlap)(p, k) == q;
      ResolverKeeps(q, k + 1, n, shotSize, blastSize, stopAtOverlap);
    }
  }

  /** Resolve enemy shots `k`, `k + 1`, ... in index order, each seeing the
      shields as the earlier ones left them. Shots before `k` are not looked
      at and shots only ever disappear. */
  function ShotsVsShields(p: ShieldPass, k: nat, shotSize: Vec2, blastSize: Vec2, stopAtOverlap: bool)
    : (r: ShieldPass)
    requires AllWellFormed(p.shields) && k <= |p.shots|
    ensures |r.shots| == |p.shots| && |r.shields| == |p.shields| && |r.blasts| == |p.blasts|
    ensures AllWellFormed(r.shields)
    ensures forall j :: 0 <= j < |r.shields| ==> r.shields[j].active == p.shields[j].active
    ensures forall j :: 0 <= j < k ==> r.shots[j] == p.shots[j]
    ensures forall j :: 0 <= j < |r.shots| ==>
      r.shots[j].item == p.shots[j].item && (r.shots[j].active ==> p.shots[j].active)
  {
    ResolverKeeps(p, k, |p.shots|, shotSize, blastSize, stopAtOverlap);
    Iterate(Resolver(shotSize, blastSize, stopAtOverlap), p, k, |p.shots|)
  }

  /** The pass state once shots `k` up to but not including `j` have been
      resolved; shots from `j` on are as they were. */
  function PassUntil(p: ShieldPass, k: nat, j: nat, shotSize: Vec2, blastSize: Vec2, stopAtOverlap: bool)
    : (r: ShieldPass)
    requires AllWellFormed(p.shields) && k <= j <= |p.shots|
    ensures |r.shots| == |p.shots| && AllWellFormed(r.shields)
    ensures forall i :: j <= i < |r.shots| ==> r.shots[i] == p.shots[i]
  {
    ResolverKeeps(p, k, j, shotSize, blastSize, stopAtOverlap);
    Iterate(Resolver(shotSize, blastSize, stopAtOverlap), p, k, j)
  }

  /** The pass from `k` is shot `k` resolved, then the pass from `k + 1`. */
  lemma PassStep(p: ShieldPass, k: nat, shotSize: Vec2, blastSize: Vec2, stopAtOverlap: bool)
    requires AllWellFormed(p.shields) && k < |p.shots|
    ensures ShotsVsShields(p, k, shotSize, blastSize, stopAtOverlap) ==
      ShotsVsShields(ResolveShot(p, k, shotSize, blastSize, stopAtOverlap), k + 1,
                     shotSize, blastSize, stopAtOverlap)
  {
    assert Resolver(shotSize, blastSize, stopAtOverlap)(p, k)
        == ResolveShot(p, k, shotSize, blastSize, stopAtOverlap);
  }

  /** Running the pass from `k` is running it up to `j`, then on from `j`. */
  lemma PassSplits(p: ShieldPass, k: nat, j: nat, shotSize: Vec2, blastSize: Vec2, stopAtOverlap: bool)
    requires AllWellFormed(p.shields) && k <= j <= |p.shots|
    ensures ShotsVsShields(p, k, shotSize, blastSize, stopAtOverlap) ==
      ShotsVsShields(PassUntil(p, k, j, shotSize, blastSize, stopAtOverlap), j,
                     shotSize, blastSize, stopAtOverlap)
  {
    IterateSplits(Resolver(shotSize, blastSize, stopAtOverlap), p, k, j, |p.shots|);
  }

  /** The first shot the pass looks at survives it exactly when it is live
      and the shields as they stand do not stop it. */
  lemma FirstShotOutcome(p: ShieldPass, k: nat, shotSize: Vec2, blastSize: Vec2, stopAtOverlap: bool)
    requires AllWellFormed(p.shields) && k < |p.shots|
    ensures ShotsVsShields(p, k, shotSize, blastSize, stopAtOverlap).shots[k].active <==>
      p.shots[k].active && !Stopped(p.shields, p.shots[k].item, shotSize, stopAtOverlap)
  {
    PassStep(p, k, shotSize, blastSize, stopAtOverlap);
    ResolveShotOutcome(p, k, shotSize, blastSize, stopAtOverlap);
  }

  /** Shot `j` survives the pass exactly when it is live and the shields, as
      the shots before it left them, do not stop it. */
  lemma ShotOutcome(p: ShieldPass, k: nat, j: nat, shotSize: Vec2, blastSize: Vec2, stopAtOverlap: bool)
    requires AllWellFormed(p.shields) && k <= j < |p.shots|
    ensures var before := PassUntil(p, k, j, shotSize, blastSize, stopAtOverlap);
      ShotsVsShields(p, k, shotSize, blastSize, stopAtOverlap).shots[j].active <==>
        p.shots[j].active && !Stopped(before.shields, p.shots[j].item, shotSize, stopAtOverlap)
  {
    PassSplits(p, k, j, shotSize, blastSize, stopAtOverlap);
    FirstShotOutcome(PassUntil(p, k, j, shotSize, blastSize, stopAtOverlap), j,
                     shotSize, blastSize, stopAtOverlap);
  }

  /** The whole pass only erases mask pixels. */
  lemma {:induction false} PassErases(p: ShieldPass, k: nat, shotSize: Vec2, blastSize: Vec2,
                                      stopAtOverlap: bool)
    requires AllWellFormed(p.shields) && k <= |p.shots|
    ensures ErasedFrom(p.shields, ShotsVsShields(p, k, shotSize, blastSize, stopAtOverlap).shields)
    decreases |p.shots| - k
  {
    if k == |p.shots| {
      ErasedFromRefl(p.shields);
    } else {
      var q := ResolveShot(p, k, shotSize, blastSize, stopAtOverlap);
      PassStep(p, k, shotSize, blastSize, stopAtOverlap);
      PassErases(q, k + 1, shotSize, blastSize, stopAtOverlap);
      ResolveShotErases(p, k, shotSize, blastSize, stopAtOverlap);
      ErasedFromTrans(p.shields, q.shields, ShotsVsShields(q, k + 1, shotSize, blastSize, stopAtOverlap).shields);
    }
  }

  /** The first shot the pass looks at, if it survives, is clear of the
      shields the whole pass leaves behind. */
  lemma FirstSurvivorClear(p: ShieldPass, k: nat, shotSize: Vec2, blastSize: Vec2, stopAtOverlap: bool)
    requires AllWellFormed(p.shields) && k < |p.shots|
    requires ShotsVsShields(p, k, shotSize, blastSize, stopAtOverlap).shots[k].active
    ensures var r := ShotsVsShields(p, k, shotSize, blastSize, stopAtOverlap);
      !Stopped(r.shields, r.shots[k].item, shotSize, stopAtOverlap)
  {
    FirstShotOutcome(p, k, shotSize, blastSize, stopAtOverlap);
    PassErases(p, k, shotSize, blastSize, stopAtOverlap);
    var r := ShotsVsShields(p, k, shotSize, blastSize, stopAtOverlap);
    ErasedNotStopped(p.shields, r.shields, p.shots[k].item, shotSize, stopAtOverlap);
  }

  /** A shot the pass lets through is not stopped by the shields the pass
      leaves behind either: holes made later never open a way to block it. */
  lemma PassSurvivorClear(p: ShieldPass, k: nat, j: nat, shotSize: Vec2,
                          blastSize: Vec2, stopAtOverlap: bool)
    requires AllWellFormed(p.shields) && k <= j < |p.shots|
    requires ShotsVsShields(p, k, shotSize, blastSize, stopAtOverlap).shots[j].active
    ensures var r := ShotsVsShields(p, k, shotSize, blastSize, stopAtOverlap);
      !Stopped(r.shields, r.shots[j].item, shotSize, stopAtOverlap)
  {
    PassSplits(p, k, j, shotSize, blastSize, stopAtOverlap);
    FirstSurvivorClear(PassUntil(p, k, j, shotSize, blastSize, stopAtOverlap), j,
                       shotSize, blastSize, stopAtOverlap);
  }

  /** Every shot the pass lets through, from `k` on, is clear of the shields
      the pass leaves behind. */
  lemma PassSurvivorsClear(p: ShieldPass, k: nat, shotSize: Vec2, blastSize: Vec2, stopAtOverlap: bool)
    requires AllWellFormed(p.shields) && k <= |p.shots|
    ensures var r := ShotsVsShields(p, k, shotSize, blastSize, stopAtOverlap);
      forall j :: k <= j < |r.shots| && r.shots[j].active ==>
        !Stopped(r.shields, r.shots[j].item, shotSize, stopAtOverlap)
  {
    forall j | k <= j < |p.shots| && ShotsVsShields(p, k, shotSize, blastSize, stopAtOverlap).shots[j].active
      ensures var r := ShotsVsShields(p, k, shotSize, blastSize, stopAtOverlap);
        !Stopped(r.shields, r.shots[j].item, shotSize, stopAtOverlap)
    {
      PassSurvivorClear(p, k, j, shotSize, blastSize, stopAtOverlap);
    }
  }

  /** The pass stops the first live shot, from `k` on, that the shields
      block as they stand: every shot before it passes without changing
      anything, so it meets the shields as they were. */
  lemma FirstBlockedShotStops(p: ShieldPass, k: nat, j: nat, shotSize: Vec2,
                              blastSize: Vec2, stopAtOverlap: bool)
    requires AllWellFormed(p.shields) && k <= j < |p.shots|
    requires p.shots[j].active && Stopped(p.shields, p.shots[j].item, shotSize, stopAtOverlap)
    requires forall i :: k <= i < j && p.shots[i].active ==>
      !Stopped(p.shields, p.shots[i].item, shotSize, stopAtOverlap)
    ensures !ShotsVsShields(p, k, shotSize, blastSize, stopAtOverlap).shots[j].active
  {
    var step := Resolver(shotSize, blastSize, stopAtOverlap);
    forall i | k <= i < j
      ensures step(p, i) == p
    {
      ResolveShotOutcome(p, i, shotSize, blastSize, stopAtOverlap);
    }
    IterateFixed(step, p, k, j);
    ShotOutcome(p, k, j, shotSize, blastSize, stopAtOverlap);
  }

  /** One enemy shot falls by 4; it is gone once below the screen. */
  function FallShot(s: Slot<Vec2>): Slot<Vec2>
  {
    if !s.active then s
    else
      var y := s.item.y + AlienShotSpeed;
      Slot(y <= ScreenHeight, Vec2(s.item.x, y))
  }

  /** Every live enemy shot falls by 4; those now below the screen are removed. */
  function MoveAlienShots(shots: seq<Slot<Vec2>>): (r: seq<Slot<Vec2>>)
    ensures |r| == |shots|
    ensures forall j :: 0 <= j < |r| && !shots[j].active ==> r[j] == shots[j]
    ensures forall j :: 0 <= j < |r| && shots[j].active ==>
      r[j].item == Vec2(shots[j].item.x, shots[j].item.y + AlienShotSpeed)
    ensures forall j :: 0 <= j < |r| ==>
      (r[j].active <==> shots[j].active && shots[j].item.y + AlienShotSpeed <= ScreenHeight)
  {
    seq(|shots|, i requires 0 <= i < |shots| => FallShot(shots[i]))
  }

  /** The bullet update of one frame: the player's shot moves, enemy shots
      are checked against the shields (first-overlap pass), then fall. Only
      the cannon's shot, the enemy shots, the shields' masks and the
      explosions change; no enemy shot appears, every shot that remains fell
      by 4, and none of them, before falling, was stopped by the shields the
      pass left. */
  function UpdateBullets(g: Game, sp: Sprites): (r: Game)
    requires Inv(g)
    ensures Inv(r)
    ensures r == g.(player := r.player, alienShots := r.alienShots, shields := r.shields, blasts := r.blasts)
    ensures r.player == MovePlayerShot(g.player)
    ensures var pass := ShotsVsShields(ShieldPass(g.alienShots, g.shields, g.blasts), 0,
                                       sp.alienShotSize, sp.alienImpactSize, true);
      && r.alienShots == MoveAlienShots(pass.shots)
      && r.shields == pass.shields && r.blasts == pass.blasts
      && forall j :: 0 <= j < |pass.shots| && pass.shots[j].active ==>
           !Stopped(pass.shields, pass.shots[j].item, sp.alienShotSize, true)
    ensures ErasedFrom(g.shields, r.shields)
    ensures forall j :: 0 <= j < |r.alienShots| && r.alienShots[j].active ==>
      && g.alienShots[j].active
      && r.alienShots[j].item == Vec2(g.alienShots[j].item.x, g.alienShots[j].item.y + AlienShotSpeed)
    ensures forall j :: 0 <= j < |r.shields| ==> r.shields[j].active == g.shields[j].active
  {
    var p := ShotsVsShields(ShieldPass(g.alienShots, g.shields, g.blasts), 0,
                            sp.alienShotSize, sp.alienImpactSize, true);
    PassErases(ShieldPass(g.alienShots, g.shields, g.blasts), 0,
               sp.alienShotSize, sp.alienImpactSize, true);
    PassSurvivorsClear(ShieldPass(g.alienShots, g.shields, g.blasts), 0,
                       sp.alienShotSize, sp.alienImpactSize, true);
    var moved := MoveAlienShots(p.shots);
    assert forall j :: 0 <= j < |moved| && moved[j].active ==>
      p.shots[j].active && p.shots[j].item == g.alienShots[j].item;
    g.(player := MovePlayerShot(g.player),
       alienShots := moved,
       shields := p.shields,
       blasts := p.blasts)
  }
}

=== FILE: saucer.dfy ===
/** The bonus target: a saucer that waits out a spawn timer, crosses the top
    of the screen from a randomly chosen side, and either leaves through the
    far edge or is shot and shows its explosion for half a second. */
module Saucer {
  import opened Geometry

  const UfoSpeed: real := 55.0
  const UfoPoints: nat := 200
  const UfoRow: real := 50.0
  const UfoBlastTime: real := 0.5
  /** Bounds of the respawn draw after an explosion, in hundredths of a second. */
  const RespawnDrawMin: int := 3000
  const RespawnDrawMax: int := 24000
  /** Bounds of the respawn draw after leaving the screen, in frames. */
  const ExitDrawMin: int := 600
  const ExitDrawMax: int := 1800

  /** `timeActive` paces the saucer's sound cue; `exploding` and
      `explosionTimer` show the hit sprite. */
  datatype Ufo = Ufo(
    pos: Vec2,
    size: Vec2,
    active: bool,
    speed: real,
    spawnTimer: real,
    timeActive: real,
    exploding: bool,
    explosionTimer: real)

  /** The saucer as it enters: side draw 0 enters from the left, anything else
      from the right; it starts just outside that edge and heads for the other. */
  function SpawnUfo(u: Ufo, sideDraw: int): (r: Ufo)
    ensures r.active && !r.exploding && r.explosionTimer == 0.0 && r.timeActive == 0.0
    ensures r.size == u.size && r.spawnTimer == u.spawnTimer && r.pos.y == UfoRow
    ensures sideDraw == 0 ==> r.speed == UfoSpeed && r.pos.x + r.size.x == 0.0
    ensures sideDraw != 0 ==> r.speed == -UfoSpeed && r.pos.x == ScreenWidth
  {
    var entered := u.(active := true, exploding := false, explosionTimer := 0.0, timeActive := 0.0);
    if sideDraw == 0 then entered.(pos := Vec2(-u.size.x, UfoRow), speed := UfoSpeed)
    else entered.(pos := Vec2(ScreenWidth, UfoRow), speed := -UfoSpeed)
  }

  /** The saucer enters out of sight (its extent touches the play field at
      most at an edge) and moves towards the field. */
  lemma SpawnEntersFromOutside(u: Ufo, sideDraw: int)
    requires u.size.x >= 0.0
    ensures var r := SpawnUfo(u, sideDraw);
      (r.pos.x + r.size.x <= 0.0 && r.speed > 0.0) || (r.pos.x >= ScreenWidth && r.speed < 0.0)
  {
  }

  /** Has the moving saucer left through the far edge? */
  predicate Exited(u: Ufo)
  {
    (u.speed > 0.0 && u.pos.x > ScreenWidth) || (u.speed < 0.0 && u.pos.x + u.size.x < 0.0)
  }

  /** The respawn delay after an explosion, drawn in hundredths of a second. */
  function RespawnDelay(respawnDraw: int): real
  {
    respawnDraw as real / 100.0
  }

  /** The respawn delay after leaving the screen: a frame count times the
      current frame time. */
  function ExitDelay(exitDraw: int, delta: real): real
  {
    exitDraw as real * delta
  }

  /** One frame of the saucer. Idle: the spawn timer counts down and the
      saucer enters when it runs out. Active: it moves by speed times `delta`
      (also while exploding), leaves once past the far edge, and a running
      explosion counts down and retires the saucer when it ends. */
  function UpdateUfo(u: Ufo, delta: real, sideDraw: int, exitDraw: int, respawnDraw: int): (r: Ufo)
    ensures r.size == u.size
    ensures !u.active ==> (r.active <==> u.spawnTimer - delta <= 0.0)
    ensures !u.active && !r.active ==> r == u.(spawnTimer := u.spawnTimer - delta)
    ensures !u.active && r.active ==> r == SpawnUfo(u.(spawnTimer := u.spawnTimer - delta), sideDraw)
    ensures u.active ==> r.pos == Vec2(u.pos.x + u.speed * delta, u.pos.y) && r.speed == u.speed
    ensures u.active ==> r.timeActive == u.timeActive + delta
    ensures u.active && !u.exploding ==>
      && !r.exploding
      && (r.active <==> !Exited(r))
      && (!r.active ==> r.spawnTimer == ExitDelay(exitDraw, delta))
      && (r.active ==> r.spawnTimer == u.spawnTimer)
      && r.explosionTimer == u.explosionTimer
    ensures u.active && u.exploding && u.explosionTimer - delta <= 0.0 ==>
      !r.active && !r.exploding && r.spawnTimer == RespawnDelay(respawnDraw)
    ensures u.active && u.exploding && u.explosionTimer - delta > 0.0 ==>
      r.exploding && r.explosionTimer == u.explosionTimer - delta && (r.active <==> !Exited(r))
      && r.spawnTimer == (if r.active then u.spawnTimer else ExitDelay(exitDraw, delta))
  {
    if !u.active then
      var t := u.spawnTimer - delta;
      if t <= 0.0 then SpawnUfo(u.(spawnTimer := t), sideDraw) else u.(spawnTimer := t)
    else
      var moved := u.(pos := Vec2(u.pos.x + u.speed * delta, u.pos.y), timeActive := u.timeActive + delta);
      var left := if Exited(moved) then moved.(active := false, spawnTimer := ExitDelay(exitDraw, delta))
                  else moved;
      if left.exploding then
        var et := left.explosionTimer - delta;
        if et <= 0.0 then
          left.(exploding := false, active := false, explosionTimer := et,
                spawnTimer := RespawnDelay(respawnDraw))
        else left.(explosionTimer := et)
      else left
  }

  /** A shot saucer: the explosion starts with its full half second. */
  function HitUfo(u: Ufo): Ufo
  {
    u.(exploding := true, explosionTimer := UfoBlastTime)
  }

  /** After an explosion the next saucer comes 30 to 240 seconds later. */
  lemma RespawnAfterExplosionInRange(u: Ufo, delta: real, sideDraw: int, exitDraw: int, respawnDraw: int)
    requires u.active && u.exploding && u.explosionTimer - delta <= 0.0
    requires RespawnDrawMin <= respawnDraw <= RespawnDrawMax
    ensures 30.0 <= UpdateUfo(u, delta, sideDraw, exitDraw, respawnDraw).spawnTimer <= 240.0
  {
  }

  /** After leaving the screen the delay depends on the frame time: at 60
      frames per second it is 10 to 30 seconds, not the 30 to 240 seconds an
      explosion schedules. */
  lemma RespawnAfterExitAtSixtyHz(u: Ufo, sideDraw: int, exitDraw: int, respawnDraw: int)
    requires u.active && !u.exploding && ExitDrawMin <= exitDraw <= ExitDrawMax
    requires Exited(u.(pos := Vec2(u.pos.x + u.speed / 60.0, u.pos.y)))
    ensures var r := UpdateUfo(u, 1.0 / 60.0, sideDraw, exitDraw, respawnDraw);
      !r.active && 10.0 <= r.spawnTimer <= 30.0
  {
    var r := UpdateUfo(u, 1.0 / 60.0, sideDraw, exitDraw, respawnDraw);
    assert u.speed * (1.0 / 60.0) == u.speed / 60.0;
    assert r.spawnTimer == exitDraw as real * (1.0 / 60.0);
  }

  /** A travelling saucer always moves towards the edge it exits through. */
  lemma TravelTowardsExit(u: Ufo, delta: real, sideDraw: int, exitDraw: int, respawnDraw: int)
    requires u.active && delta > 0.0 && u.speed != 0.0
    ensures var r := UpdateUfo(u, delta, sideDraw, exitDraw, respawnDraw);
      (u.speed > 0.0 ==> r.pos.x > u.pos.x) && (u.speed < 0.0 ==> r.pos.x < u.pos.x)
  {
    var r := UpdateUfo(u, delta, sideDraw, exitDraw, respawnDraw);
    if u.speed > 0.0 {
      assert u.speed * delta > 0.0;
    } else {
      assert (-u.speed) * delta > 0.0;
    }
  }
}

=== FILE: session.dfy ===
/** The session lifecycle: the pause gate, restart, the wave transition, the
    per-frame simulation in its fixed order, and the two ways a game ends
    (the last life lost, or the swarm reaching the cannon's line). */
module Session {
  import opened Basics
  import opened Geometry
  import opened Pool
  import opened Shields
  import opened Effects
  import opened Swarm
  import opened Saucer
  import opened Ship
  import opened World
  import opened Projectiles
  import opened Collisions

  /** One frame's input: steering and fire, the pause key, the restart key. */
  datatype Input = Input(controls: Controls, pausePressed: bool, restartPressed: bool)

  /** The random draws one frame may consume: the shooter tries, the next
      shot interval (hundredths of a second), the saucer's side (0 or 1), its
      exit respawn draw (frames) and its explosion respawn draw (hundredths of
      a second), and the draws a new wave or a restart consumes. */
  datatype Draws = Draws(
    shooters: seq<int>,
    shootInterval: int,
    ufoSide: int,
    ufoExit: int,
    ufoRespawn: int,
    waveShoot: int,
    waveUfo: int)

  // ---------------------------------------------------------------------
  // The pause gate
  // ---------------------------------------------------------------------

  /** The pause gate as the frame update writes it: the pause key toggles
      the flag, and if the game is now paused the key is tested again (with
      the same answer within the frame) and toggles it back. Returns the new
      flag and whether the rest of the frame is skipped. */
  function PauseGateAsWritten(paused: bool, pressed: bool): (r: (bool, bool))
    ensures r.0 <==> paused && !pressed
    ensures r.1 <==> paused != pressed
  {
    var toggled := if pressed then !paused else paused;
    if toggled then (if pressed then !toggled else toggled, true)
    else (toggled, false)
  }

  /** From a running game no sequence of key presses ever pauses it: a press
      costs one skipped frame and leaves the game running. */
  lemma {:induction false} PauseNeverEngagesAsWritten(presses: seq<bool>)
    ensures RunGateAsWritten(false, presses) == false
    decreases |presses|
  {
    if |presses| > 0 {
      assert PauseGateAsWritten(false, presses[0]).0 == false;
      PauseNeverEngagesAsWritten(presses[1..]);
    }
  }

  /** The flag after a run of frames through the as-written gate. */
  function RunGateAsWritten(paused: bool, presses: seq<bool>): bool
    decreases |presses|
  {
    if |presses| == 0 then paused
    else RunGateAsWritten(PauseGateAsWritten(paused, presses[0]).0, presses[1..])
  }

  /** The concrete case: pressing the key in a running game skips the frame
      and does not pause. */
  lemma PressInRunningGameIsLost()
    ensures PauseGateAsWritten(false, true) == (false, true)
  {
  }

  /** The pause gate as evidently intended: a press toggles the flag once,
      and the rest of the frame is skipped exactly while the game is paused. */
  function PauseGate(paused: bool, pressed: bool): (r: (bool, bool))
    ensures r.0 <==> paused != pressed
    ensures r.1 == r.0
  {
    var now := if pressed then !paused else paused;
    (now, now)
  }

  /** The intended gate pauses a running game on a press, resumes a paused one
      on the next press, and otherwise leaves the flag alone; a press and a
      second press cancel out. */
  lemma PauseGateToggles(paused: bool)
    ensures PauseGate(false, true) == (true, true)
    ensures PauseGate(true, true) == (false, false)
    ensures PauseGate(paused, false).0 == paused
    ensures PauseGate(PauseGate(paused, true).0, true).0 == paused
  {
  }

  // ---------------------------------------------------------------------
  // Restart and wave transition
  // ---------------------------------------------------------------------

  /** A restart from the game-over state: a fresh first wave with three
      lives and score 0, empty shot and explosion pools, a fresh shield row,
      an idle saucer with a new spawn timer. The high score is kept, and the
      saucer's `exploding` flag is not reset. */
  function InitGame(prev: Game, sp: Sprites, shootDraw: int, ufoDraw: int): (r: Game)
    requires |prev.alienShots| == MaxAlienShots && |prev.blasts| == MaxExplosions
    requires prev.hiScore >= 0 && ValidSprites(sp)
    ensures Inv(r)
    ensures r.score == 0 && r.hiScore == prev.hiScore && r.wave == 1
    ensures !r.gameOver && !r.paused
    ensures r.player.lives == StartLives && r.player.explosionTimer == 0.0 && !r.player.shotActive
    ensures r.player.size == sp.playerSize && r.player.pos == HomePosition(sp.playerSize)
    ensures r.swarm == InitAliens(1, sp.alienSizes, shootDraw)
    ensures r.swarm.alive == NumAliens && r.swarm.waitTime == WaveWaitTime(1)
    ensures CountActive(r.alienShots) == 0 && CountActive(r.blasts) == 0
    ensures !r.ufo.active && r.ufo.spawnTimer == RespawnDelay(ufoDraw)
    ensures r.ufo.exploding == prev.ufo.exploding
    ensures r.shields == InitShields(sp.shieldW, sp.shieldH, sp.shieldImage)
  {
    ClearedCount(prev.alienShots);
    ClearedCount(prev.blasts);
    var player := Player(HomePosition(sp.playerSize), sp.playerSize, StartLives, false,
                         prev.player.shotPos, sp.playerShotSize, 0.0);
    Game(player,
         InitAliens(1, sp.alienSizes, shootDraw),
         Cleared(prev.alienShots),
         InitShields(sp.shieldW, sp.shieldH, sp.shieldImage),
         prev.ufo.(size := sp.ufoSize, active := false, spawnTimer := RespawnDelay(ufoDraw)),
         Cleared(prev.blasts),
         0, prev.hiScore, 1, false, false)
  }

  /** The saucer's stale `exploding` flag after a restart has no effect: the
      idle saucer cannot be hit, and when it next enters the flag is cleared. */
  lemma StaleExplosionFlagHarmless(prev: Game, sp: Sprites, shootDraw: int, ufoDraw: int,
                                   delta: real, sideDraw: int, exitDraw: int, respawnDraw: int)
    requires |prev.alienShots| == MaxAlienShots && |prev.blasts| == MaxExplosions
    requires prev.hiScore >= 0 && ValidSprites(sp)
    ensures var u := InitGame(prev, sp, shootDraw, ufoDraw).ufo;
      && !UfoHittable(u)
      && (UpdateUfo(u, delta, sideDraw, exitDraw, respawnDraw).active ==>
            !UpdateUfo(u, delta, sideDraw, exitDraw, respawnDraw).exploding)
  {
  }

  /** The wave is won: no alien left, no saucer on screen, cannon not exploding. */
  predicate WaveCleared(g: Game)
  {
    g.swarm.alive <= 0 && !g.ufo.active && g.player.explosionTimer <= 0.0
  }

  /** The next wave: a full grid at the new wave's (faster) starting pace,
      the cannon back home without its shot, every enemy shot gone, a new
      saucer spawn timer and a fresh shield row. Score, lives and explosions
      carry over. */
  function NextLevel(g: Game, sp: Sprites, shootDraw: int, ufoDraw: int): (r: Game)
    requires Inv(g) && ValidSprites(sp)
    ensures Inv(r)
    ensures r.wave == g.wave + 1
    ensures r.swarm == InitAliens(g.wave + 1, sp.alienSizes, shootDraw)
    ensures r.swarm.alive == NumAliens && r.swarm.waitTime == WaveWaitTime(g.wave + 1)
    ensures forall i :: 0 <= i < |r.swarm.aliens| ==>
      r.swarm.aliens[i].active && r.swarm.aliens[i].pos == r.swarm.aliens[i].base
    ensures r.player == g.player.(pos := HomePosition(g.player.size), shotActive := false)
    ensures CountActive(r.alienShots) == 0
    ensures r.ufo == g.ufo.(spawnTimer := RespawnDelay(ufoDraw))
    ensures r.shields == InitShields(sp.shieldW, sp.shieldH, sp.shieldImage)
    ensures r.score == g.score && r.hiScore == g.hiScore && r.blasts == g.blasts
    ensures r.gameOver == g.gameOver && r.paused == g.paused
  {
    ClearedCount(g.alienShots);
    g.(wave := g.wave + 1,
       swarm := InitAliens(g.wave + 1, sp.alienSizes, shootDraw),
       player := g.player.(pos := HomePosition(g.player.size), shotActive := false),
       alienShots := Cleared(g.alienShots),
       ufo := g.ufo.(spawnTimer := RespawnDelay(ufoDraw)),
       shields := InitShields(sp.shieldW, sp.shieldH, sp.shieldImage))
  }

  /** Each new wave starts its march faster than the one before. */
  lemma NextWaveIsFaster(g: Game, sp: Sprites, shootDraw: int, ufoDraw: int)
    requires Inv(g) && ValidSprites(sp)
    ensures NextLevel(g, sp, shootDraw, ufoDraw).swarm.waitTime < WaveWaitTime(g.wave)
  {
    WaveWaitTimeDecreasing(g.wave, g.wave + 1);
  }

  // ---------------------------------------------------------------------
  // The swarm reaching the bottom
  // ---------------------------------------------------------------------

  /** A live alien whose lower edge has reached the cannon's top. */
  predicate Reached(a: Alien, p: Player)
  {
    a.active && a.pos.y + a.size.y >= p.pos.y
  }

  /** Some live alien at index `from` or later has reached the cannon. */
  predicate InvadedFrom(aliens: seq<Alien>, p: Player, from: nat)
  {
    exists j :: from <= j < |aliens| && Reached(aliens[j], p)
  }

  /** Where a live alien presses into a shield: the middle of its lower edge. */
  function AlienFoot(a: Alien): Vec2
  {
    Vec2(a.pos.x + a.size.x / 2.0, a.pos.y + a.size.y)
  }

  /** A live alien overlapping shields stamps damage three times at its foot
      on each active one it overlaps; the three stamps carve what one does. */
  function Trample(shields: seq<Shield>, a: Alien): (r: seq<Shield>)
    requires AllWellFormed(shields)
    ensures |r| == |shields| && AllWellFormed(r)
    ensures forall s :: 0 <= s < |r| ==>
      r[s] == if shields[s].active && Overlaps(AlienRect(a), shields[s].bounds)
              then Damage(shields[s], AlienFoot(a)) else shields[s]
  {
    var p := AlienFoot(a);
    assert forall s :: 0 <= s < |shields| ==>
      Damage(Damage(Damage(shields[s], p), p), p) == Damage(shields[s], p) by {
      forall s | 0 <= s < |shields|
        ensures Damage(Damage(Damage(shields[s], p), p), p) == Damage(shields[s], p)
      {
        TripleDamageIsSingle(shields[s], p);
      }
    }
    seq(|shields|, s requires 0 <= s < |shields| =>
      if shields[s].active && Overlaps(AlienRect(a), shields[s].bounds)
      then Damage(Damage(Damage(shields[s], p), p), p)
      else shields[s])
  }

  /** Trampling only erases mask pixels. */
  lemma TrampleErases(shields: seq<Shield>, a: Alien)
    requires AllWellFormed(shields)
    ensures ErasedFrom(shields, Trample(shields, a))
  {
    var r := Trample(shields, a);
    forall s, y, x | 0 <= s < |r| && 0 <= y < r[s].texH && 0 <= x < r[s].texW
      ensures r[s].alpha[y][x] == 0 || r[s].alpha[y][x] == shields[s].alpha[y][x]
    {
      assert r[s].texH == shields[s].texH && r[s].texW == shields[s].texW;
    }
  }

  /** Live alien `j` is one the scan from `i` reaches and lets trample: no
      alien from `i` up to and including `j` has reached the cannon's line. */
  predicate TramplesBefore(aliens: seq<Alien>, p: Player, i: nat, j: nat)
  {
    i <= j < |aliens| && aliens[j].active && forall k :: i <= k <= j ==> !Reached(aliens[k], p)
  }

  /** The lose scan over the live aliens from index `i` in order: the first
      one that has reached the cannon's line ends the game and stops the
      scan; each one scanned before it tramples the shields it overlaps. The
      game ends exactly when some live alien has reached the line. */
  function LoseScan(g: Game, i: nat): (r: Game)
    requires Inv(g) && i <= |g.swarm.aliens|
    ensures Inv(r)
    ensures r == g.(shields := r.shields, gameOver := r.gameOver)
    ensures r.gameOver <==> g.gameOver || InvadedFrom(g.swarm.aliens, g.player, i)
    ensures forall s :: 0 <= s < |r.shields| ==> r.shields[s].active == g.shields[s].active
    ensures ErasedFrom(g.shields, r.shields)
    decreases |g.swarm.aliens| - i
  {
    if i == |g.swarm.aliens| then
      ErasedFromRefl(g.shields);
      g
    else
      var a := g.swarm.aliens[i];
      if !a.active then
        assert InvadedFrom(g.swarm.aliens, g.player, i) <==> InvadedFrom(g.swarm.aliens, g.player, i + 1);
        LoseScan(g, i + 1)
      else if Reached(a, g.player) then
        ErasedFromRefl(g.shields);
        g.(gameOver := true)
      else
        assert InvadedFrom(g.swarm.aliens, g.player, i) <==> InvadedFrom(g.swarm.aliens, g.player, i + 1);
        var g1 := g.(shields := Trample(g.shields, a));
        var r := LoseScan(g1, i + 1);
        TrampleErases(g.shields, a);
        ErasedFromTrans(g.shields, g1.shields, r.shields);
        r
  }

  /** A shield that no alien the scan lets trample overlaps (or an inactive
      one) leaves the lose scan with its mask untouched. */
  lemma {:induction false} LoseScanSpares(g: Game, i: nat, s: nat)
    requires Inv(g) && i <= |g.swarm.aliens| && s < |g.shields|
    requires forall j: nat :: TramplesBefore(g.swarm.aliens, g.player, i, j) ==>
      !(g.shields[s].active && Overlaps(AlienRect(g.swarm.aliens[j]), g.shields[s].bounds))
    ensures LoseScan(g, i).shields[s] == g.shields[s]
    decreases |g.swarm.aliens| - i
  {
    if i < |g.swarm.aliens| {
      var a := g.swarm.aliens[i];
      assert forall j: nat :: TramplesBefore(g.swarm.aliens, g.player, i + 1, j) && !Reached(a, g.player) ==>
        TramplesBefore(g.swarm.aliens, g.player, i, j);
      if !a.active {
        LoseScanSpares(g, i + 1, s);
      } else if !Reached(a, g.player) {
        assert TramplesBefore(g.swarm.aliens, g.player, i, i);
        var g1 := g.(shields := Trample(g.shields, a));
        assert g1.shields[s] == g.shields[s];
        LoseScanSpares(g1, i + 1, s);
      }
    }
  }

  /** Every alien the scan lets trample leaves each active shield it
      overlaps transparent at its foot when the scan ends. */
  lemma {:induction false} LoseScanClearsFeet(g: Game, i: nat, j: nat, s: nat)
    requires Inv(g) && i <= |g.swarm.aliens| && s < |g.shields|
    requires TramplesBefore(g.swarm.aliens, g.player, i, j)
    requires g.shields[s].active && Overlaps(AlienRect(g.swarm.aliens[j]), g.shields[s].bounds)
    ensures !Opaque(LoseScan(g, i).shields[s], AlienFoot(g.swarm.aliens[j]))
    decreases |g.swarm.aliens| - i
  {
    var a := g.swarm.aliens[i];
    assert !Reached(a, g.player);
    if !a.active {
      LoseScanClearsFeet(g, i + 1, j, s);
    } else {
      var g1 := g.(shields := Trample(g.shields, a));
      var r := LoseScan(g1, i + 1);
      assert LoseScan(g, i) == r;
      if j == i {
        DamageClearsContact(g.shields[s], AlienFoot(a));
        ErasedOpaque(g1.shields, r.shields, s, AlienFoot(a));
      } else {
        assert g1.shields[s].active && g1.shields[s].bounds == g.shields[s].bounds;
        LoseScanClearsFeet(g1, i + 1, j, s);
      }
    }
  }

  // ---------------------------------------------------------------------
  // The frame
  // ---------------------------------------------------------------------

  /** The movement half of an unpaused frame, in the game's order: the
      cannon (steering and fire, or its death countdown), the swarm, the
      projectiles, the saucer and the explosions. */
  function Advance(g: Game, sp: Sprites, c: Controls, delta: real, d: Draws): (r: Game)
    requires Inv(g) && ValidShooterDraws(d.shooters)
    ensures Inv(r)
    ensures r.wave == g.wave && r.score == g.score && r.hiScore == g.hiScore && r.paused == g.paused
    ensures r.player.lives == PlayerPhase(g.player, c, delta).0.lives
    ensures r.gameOver <==> g.gameOver || PlayerPhase(g.player, c, delta).1
  {
    var (player, lost) := PlayerPhase(g.player, c, delta);
    var g1 := g.(player := player, gameOver := g.gameOver || lost);
    var (sw, shots) := UpdateAliens(g1.swarm, g1.alienShots, delta, sp.alienShotSize, d.shooters, d.shootInterval);
    var g2 := g1.(swarm := sw, alienShots := shots);
    var g3 := UpdateBullets(g2, sp);
    var g4 := g3.(ufo := UpdateUfo(g3.ufo, delta, d.ufoSide, d.ufoExit, d.ufoRespawn));
    g4.(blasts := UpdateExplosions(g4.blasts, delta))
  }

  /** The win check: a cleared wave starts the next one. */
  function WinCheck(g: Game, sp: Sprites, d: Draws): (r: Game)
    requires Inv(g) && ValidSprites(sp)
    ensures Inv(r)
    ensures WaveCleared(g) ==> r == NextLevel(g, sp, d.waveShoot, d.waveUfo)
    ensures !WaveCleared(g) ==> r == g
  {
    if WaveCleared(g) then NextLevel(g, sp, d.waveShoot, d.waveUfo) else g
  }

  /** The resolution half of an unpaused frame: the collision resolver, the
      win check (which starts the next wave) and the lose scan. */
  function Resolve(g: Game, sp: Sprites, d: Draws): (r: Game)
    requires Inv(g) && ValidSprites(sp)
    ensures Inv(r)
    ensures r.wave == g.wave || r.wave == g.wave + 1
    ensures g.score <= r.score && g.hiScore <= r.hiScore && r.paused == g.paused
    ensures r.player.lives == g.player.lives
    ensures r.gameOver <==> g.gameOver || InvadedFrom(r.swarm.aliens, r.player, 0)
    ensures r.wave == g.wave + 1 <==> WaveCleared(CheckCollisions(g, sp))
    ensures WaveCleared(CheckCollisions(g, sp)) ==>
      r.swarm.alive == NumAliens && CountActive(r.alienShots) == 0 && !r.player.shotActive
  {
    LoseScan(WinCheck(CheckCollisions(g, sp), sp, d), 0)
  }

  /** One unpaused frame. It keeps the invariants, never lowers the score,
      costs at most one life, advances the wave by at most one, and ends the
      game exactly when the last life runs out or a live alien has reached
      the cannon's line. */
  function Simulate(g: Game, sp: Sprites, c: Controls, delta: real, d: Draws): (r: Game)
    requires Inv(g) && ValidSprites(sp) && ValidShooterDraws(d.shooters)
    ensures Inv(r)
    ensures r.wave == g.wave || r.wave == g.wave + 1
    ensures g.score <= r.score && g.hiScore <= r.hiScore
    ensures r.paused == g.paused
    ensures r.player.lives == g.player.lives || r.player.lives == g.player.lives - 1
    ensures r.gameOver <==>
      g.gameOver || PlayerPhase(g.player, c, delta).1 || InvadedFrom(r.swarm.aliens, r.player, 0)
  {
    Resolve(Advance(g, sp, c, delta, d), sp, d)
  }

  /** The rest of a live frame once a pause gate has given the new flag and
      whether to skip: a skipped frame only stores the flag, otherwise one
      frame is simulated. */
  function AfterGate(g: Game, sp: Sprites, input: Input, delta: real, d: Draws, gate: (bool, bool))
    : (r: Game)
    requires Inv(g) && ValidSprites(sp) && ValidShooterDraws(d.shooters)
    ensures Inv(r) && g.hiScore <= r.hiScore && g.score <= r.score
    ensures gate.1 ==> r == g.(paused := gate.0)
    ensures !gate.1 ==> r == Simulate(g.(paused := gate.0), sp, input.controls, delta, d)
  {
    if gate.1 then g.(paused := gate.0)
    else Simulate(g.(paused := gate.0), sp, input.controls, delta, d)
  }

  /** The frame update as written: a finished game waits for the restart
      key; otherwise the pause gate runs, with the key read twice, and unless
      it says skip one frame is simulated. A press in a running game costs
      that frame and leaves the game running; a press in a paused game
      resumes it in the same frame. */
  function UpdateGameAsWritten(g: Game, sp: Sprites, input: Input, delta: real, d: Draws): (r: Game)
    requires Inv(g) && ValidSprites(sp) && ValidShooterDraws(d.shooters)
    ensures Inv(r)
    ensures g.hiScore <= r.hiScore
    ensures g.gameOver && !input.restartPressed ==> r == g
    ensures !g.gameOver && !g.paused && input.pausePressed ==> r == g
    ensures !g.gameOver && g.paused && !input.pausePressed ==> r == g
    ensures !g.gameOver && g.paused == input.pausePressed ==> !r.paused
    ensures !g.gameOver && g.paused && input.pausePressed ==>
      r == Simulate(g.(paused := false), sp, input.controls, delta, d)
    ensures !g.gameOver && !g.paused ==> !r.paused
  {
    if g.gameOver then
      if input.restartPressed then InitGame(g, sp, d.waveShoot, d.waveUfo) else g
    else AfterGate(g, sp, input, delta, d, PauseGateAsWritten(g.paused, input.pausePressed))
  }

  /** The frame update with the corrected pause gate of the finding above:
      a finished game waits for the restart key; otherwise a press toggles
      the pause flag once and, unless the game is now paused, one frame is
      simulated. The high score never falls. */
  function UpdateGame(g: Game, sp: Sprites, input: Input, delta: real, d: Draws): (r: Game)
    requires Inv(g) && ValidSprites(sp) && ValidShooterDraws(d.shooters)
    ensures Inv(r)
    ensures g.hiScore <= r.hiScore
    ensures g.gameOver && !input.restartPressed ==> r == g
    ensures g.gameOver && input.restartPressed ==>
      && r.score == 0 && r.hiScore == g.hiScore && r.wave == 1 && !r.gameOver
      && r.player.lives == StartLives && r.swarm.alive == NumAliens
    ensures !g.gameOver && g.paused && !input.pausePressed ==> r == g
    ensures !g.gameOver && !g.paused && input.pausePressed ==> r == g.(paused := true)
    ensures !g.gameOver && (g.paused == input.pausePressed) ==>
      r == Simulate(g.(paused := false), sp, input.controls, delta, d)
  {
    if g.gameOver then
      if input.restartPressed then InitGame(g, sp, d.waveShoot, d.waveUfo) else g
    else AfterGate(g, sp, input, delta, d, PauseGate(g.paused, input.pausePressed))
  }

  /** The two frame updates differ only on a pause-key press in a running
      game: without a press, on a press that resumes a paused game, or once
      the game is over, they compute the same frame; a press in a running
      game pauses it in the corrected update and is lost in the one as
      written. */
  lemma UpdateGameDiffersOnlyOnPress(g: Game, sp: Sprites, input: Input, delta: real, d: Draws)
    requires Inv(g) && ValidSprites(sp) && ValidShooterDraws(d.shooters)
    ensures g.gameOver || !input.pausePressed || g.paused ==>
      UpdateGameAsWritten(g, sp, input, delta, d) == UpdateGame(g, sp, input, delta, d)
    ensures !g.gameOver && !g.paused && input.pausePressed ==>
      UpdateGameAsWritten(g, sp, input, delta, d) == g
      && UpdateGame(g, sp, input, delta, d) == g.(paused := true)
  {
  }

  /** Playing on: a frame that does not end the game never lowers the score
      and keeps the wave or advances it by one. */
  lemma ScoreNeverFallsInPlay(g: Game, sp: Sprites, input: Input, delta: real, d: Draws)
    requires Inv(g) && ValidSprites(sp) && ValidShooterDraws(d.shooters) && !g.gameOver
    ensures var r := UpdateGame(g, sp, input, delta, d);
      g.score <= r.score && (r.wave == g.wave || r.wave == g.wave + 1)
  {
  }
}

=== FILE: shields.dfy ===
/** The destructible cover: each shield owns a small raster of opacity values
    (its mask) drawn at twice its resolution in the world. A world point is
    mapped into the mask by scaling each axis, flipping Y (the render texture
    stores the image upside down) and clamping into the raster; the same mapping is
    used to sample the mask and to carve holes into it. */
module Shields {
  import opened Basics
  import opened Geometry

  type Byte = x: int | 0 <= x < 256

  const NumShields: nat := 4
  /** A sampled alpha above this counts as solid. */
  const OpaqueThreshold: int := 10
  /** Radius, in mask pixels, of the hole one hit carves. */
  const DamageRadius: real := 5.0
  /** Shields are drawn at twice the texture's size. */
  const ShieldScale: real := 2.0
  const ShieldTop: real := ScreenHeight - 120.0

  /** `alpha[y][x]` is the opacity of mask pixel (x, y); `texW` x `texH` is the
      mask's resolution, `bounds` the shield's (scaled) extent in the world. */
  datatype Shield = Shield(
    pos: Vec2,
    bounds: Rect,
    texW: nat,
    texH: nat,
    alpha: seq<seq<Byte>>,
    active: bool)

  /** `img` is a `w` x `h` raster stored row by row. */
  predicate IsImage(img: seq<seq<Byte>>, w: nat, h: nat)
  {
    w >= 1 && h >= 1 && |img| == h && forall y :: 0 <= y < h ==> |img[y]| == w
  }

  /** The transform is defined: both scale factors have non-zero denominators. */
  predicate Mappable(sh: Shield)
  {
    sh.texW >= 1 && sh.texH >= 1 && sh.bounds.w > 0.0 && sh.bounds.h > 0.0
  }

  predicate WellFormed(sh: Shield)
  {
    Mappable(sh) && IsImage(sh.alpha, sh.texW, sh.texH)
  }

  predicate AllWellFormed(shields: seq<Shield>)
  {
    forall i :: 0 <= i < |shields| ==> WellFormed(shields[i])
  }

  function ScaleX(sh: Shield): real
    requires Mappable(sh)
  {
    sh.texW as real / sh.bounds.w
  }

  function ScaleY(sh: Shield): real
    requires Mappable(sh)
  {
    sh.texH as real / sh.bounds.h
  }

  /** Horizontal mask coordinate of `p` before clamping. */
  function RawMaskX(sh: Shield, p: Vec2): real
    requires Mappable(sh)
  {
    (p.x - sh.pos.x) * ScaleX(sh)
  }

  /** Vertical mask coordinate of `p` before clamping, with Y flipped. */
  function RawMaskY(sh: Shield, p: Vec2): real
    requires Mappable(sh)
  {
    sh.texH as real - (p.y - sh.pos.y) * ScaleY(sh)
  }

  /** World point to mask coordinates, clamped so that any point, inside the
      shield or not, lands on a pixel of the mask. */
  function ToMask(sh: Shield, p: Vec2): (m: Vec2)
    requires Mappable(sh)
    ensures 0.0 <= m.x <= (sh.texW - 1) as real
    ensures 0.0 <= m.y <= (sh.texH - 1) as real
    ensures 0.0 <= RawMaskX(sh, p) <= (sh.texW - 1) as real ==> m.x == RawMaskX(sh, p)
    ensures RawMaskX(sh, p) < 0.0 ==> m.x == 0.0
    ensures RawMaskX(sh, p) > (sh.texW - 1) as real ==> m.x == (sh.texW - 1) as real
    ensures 0.0 <= RawMaskY(sh, p) <= (sh.texH - 1) as real ==> m.y == RawMaskY(sh, p)
    ensures RawMaskY(sh, p) < 0.0 ==> m.y == 0.0
    ensures RawMaskY(sh, p) > (sh.texH - 1) as real ==> m.y == (sh.texH - 1) as real
  {
    Vec2(Clamp(RawMaskX(sh, p), 0.0, (sh.texW - 1) as real),
         Clamp(RawMaskY(sh, p), 0.0, (sh.texH - 1) as real))
  }

  /** The inverse direction: the world point a mask coordinate stands for. */
  function FromMask(sh: Shield, m: Vec2): Vec2
    requires Mappable(sh)
  {
    Vec2(sh.pos.x + m.x / ScaleX(sh), sh.pos.y + (sh.texH as real - m.y) / ScaleY(sh))
  }

  /** Every coordinate of the mask is reached by the transform, from the world
      point `FromMask` gives for it. */
  lemma ToMaskFromMask(sh: Shield, m: Vec2)
    requires Mappable(sh)
    requires 0.0 <= m.x <= (sh.texW - 1) as real
    requires 0.0 <= m.y <= (sh.texH - 1) as real
    ensures ToMask(sh, FromMask(sh, m)) == m
  {
    var p := FromMask(sh, m);
    var sx, sy := ScaleX(sh), ScaleY(sh);
    assert sx > 0.0 && sy > 0.0;
    assert RawMaskX(sh, p) == (m.x / sx) * sx;
    assert RawMaskY(sh, p) == sh.texH as real - ((sh.texH as real - m.y) / sy) * sy;
  }

  lemma ClampMonotone(a: real, b: real, lo: real, hi: real)
    requires a <= b && lo <= hi
    ensures Clamp(a, lo, hi) <= Clamp(b, lo, hi)
  {
  }

  /** Moving right in the world never moves left in the mask; moving down in
      the world never moves down in the mask (the Y flip). */
  lemma ToMaskMonotone(sh: Shield, p: Vec2, q: Vec2)
    requires Mappable(sh)
    ensures p.x <= q.x ==> ToMask(sh, p).x <= ToMask(sh, q).x
    ensures p.y <= q.y ==> ToMask(sh, p).y >= ToMask(sh, q).y
  {
    var sx, sy := ScaleX(sh), ScaleY(sh);
    assert sx > 0.0 && sy > 0.0;
    if p.x <= q.x {
      assert RawMaskX(sh, q) - RawMaskX(sh, p) == (q.x - p.x) * sx;
      ClampMonotone(RawMaskX(sh, p), RawMaskX(sh, q), 0.0, (sh.texW - 1) as real);
    }
    if p.y <= q.y {
      assert RawMaskY(sh, p) - RawMaskY(sh, q) == (q.y - p.y) * sy;
      ClampMonotone(RawMaskY(sh, q), RawMaskY(sh, p), 0.0, (sh.texH - 1) as real);
    }
  }

  lemma FloorInRange(r: real, n: nat)
    requires n >= 1 && 0.0 <= r <= (n - 1) as real
    ensures 0 <= r.Floor < n
  {
  }

  /** Alpha of the pixel the (truncated) mask coordinate of `p` falls on. */
  function AlphaAt(sh: Shield, p: Vec2): Byte
    requires WellFormed(sh)
  {
    var m := ToMask(sh, p);
    FloorInRange(m.x, sh.texW);
    FloorInRange(m.y, sh.texH);
    sh.alpha[m.y.Floor][m.x.Floor]
  }

  predicate Opaque(sh: Shield, p: Vec2)
    requires WellFormed(sh)
  {
    AlphaAt(sh, p) > OpaqueThreshold
  }

  /** Pixel (x, y) lies within the damage radius of the mask point `c`
      (comparing squared distances, so no square root is needed). */
  predicate InBlast(x: int, y: int, c: Vec2)
  {
    var dx := x as real - c.x;
    var dy := y as real - c.y;
    dx * dx + dy * dy <= DamageRadius * DamageRadius
  }

  /** The mask with every pixel within the damage radius of `c` made transparent. */
  function Erase(img: seq<seq<Byte>>, w: nat, h: nat, c: Vec2): (r: seq<seq<Byte>>)
    requires IsImage(img, w, h)
    ensures IsImage(r, w, h)
    ensures forall y, x | 0 <= y < h && 0 <= x < w :: InBlast(x, y, c) ==> r[y][x] == 0
    ensures forall y, x | 0 <= y < h && 0 <= x < w :: !InBlast(x, y, c) ==> r[y][x] == img[y][x]
  {
    seq(h, y requires 0 <= y < h =>
      seq(w, x requires 0 <= x < w => if InBlast(x, y, c) then 0 else img[y][x]))
  }

  /** A hit on a shield at world point `p`: nothing happens to an inactive
      shield; on an active one the circular neighbourhood of the mapped point
      is erased and nothing else about the shield changes. */
  function Damage(sh: Shield, p: Vec2): (r: Shield)
    requires WellFormed(sh)
    ensures WellFormed(r)
    ensures r.(alpha := sh.alpha) == sh
    ensures !sh.active ==> r == sh
    ensures sh.active ==> forall y, x | 0 <= y < sh.texH && 0 <= x < sh.texW ::
      InBlast(x, y, ToMask(sh, p)) ==> r.alpha[y][x] == 0
    ensures sh.active ==> forall y, x | 0 <= y < sh.texH && 0 <= x < sh.texW ::
      !InBlast(x, y, ToMask(sh, p)) ==> r.alpha[y][x] == sh.alpha[y][x]
  {
    if !sh.active then sh
    else sh.(alpha := Erase(sh.alpha, sh.texW, sh.texH, ToMask(sh, p)))
  }

  lemma SquareBelowOne(d: real)
    requires -1.0 < d <= 0.0
    ensures d * d <= 1.0
  {
    assert (-d) * (-d) <= (-d) * 1.0;
  }

  /** A pixel less than one step below and left of `c` on both axes lies in
      the carved circle. */
  lemma NearPixelInBlast(x: int, y: int, c: Vec2)
    requires -1.0 < x as real - c.x <= 0.0 && -1.0 < y as real - c.y <= 0.0
    ensures InBlast(x, y, c)
  {
    SquareBelowOne(x as real - c.x);
    SquareBelowOne(y as real - c.y);
  }

  /** After a hit at `p` on an active shield, a test at `p` passes through:
      the pixel the test samples lies within the carved circle. */
  lemma DamageClearsContact(sh: Shield, p: Vec2)
    requires WellFormed(sh) && sh.active
    ensures !Opaque(Damage(sh, p), p)
  {
    var r := Damage(sh, p);
    SameGeometrySamplesSamePixel(sh, r, p);
    var m := ToMask(sh, p);
    var x, y := m.x.Floor, m.y.Floor;
    NearPixelInBlast(x, y, m);
    assert r.alpha[y][x] == 0;
  }

  /** Carving the same hole twice is carving it once. */
  lemma DamageIdempotent(sh: Shield, p: Vec2)
    requires WellFormed(sh)
    ensures Damage(Damage(sh, p), p) == Damage(sh, p)
  {
    var d := Damage(sh, p);
    var dd := Damage(d, p);
    if sh.active {
      assert ToMask(d, p) == ToMask(sh, p);
      forall y | 0 <= y < sh.texH
        ensures dd.alpha[y] == d.alpha[y]
      {
        assert |dd.alpha[y]| == |d.alpha[y]|;
      }
      assert dd.alpha == d.alpha;
    }
  }

  /** Three stamps at one point, as the swarm's contact with a shield applies
      them, leave the same mask as a single stamp. */
  lemma TripleDamageIsSingle(sh: Shield, p: Vec2)
    requires WellFormed(sh)
    ensures Damage(Damage(Damage(sh, p), p), p) == Damage(sh, p)
  {
    DamageIdempotent(sh, p);
    DamageIdempotent(sh, p);
  }

  /** Damage only erases: a point that tests solid after a hit anywhere was
      solid before it. */
  lemma DamageOnlyErases(sh: Shield, q: Vec2, p: Vec2)
    requires WellFormed(sh)
    ensures Opaque(Damage(sh, q), p) ==> Opaque(sh, p)
  {
    if sh.active {
      var r := Damage(sh, q);
      SameGeometrySamplesSamePixel(sh, r, p);
      var m := ToMask(sh, p);
      FloorInRange(m.x, sh.texW);
      FloorInRange(m.y, sh.texH);
      var x, y := m.x.Floor, m.y.Floor;
      if InBlast(x, y, ToMask(sh, q)) {
        assert r.alpha[y][x] == 0;
      } else {
        assert r.alpha[y][x] == sh.alpha[y][x];
      }
    }
  }

  /** Two well-formed shields that differ only in their masks sample the same
      pixel for any point. */
  lemma SameGeometrySamplesSamePixel(a: Shield, b: Shield, p: Vec2)
    requires WellFormed(a) && WellFormed(b) && b.(alpha := a.alpha) == a
    ensures ToMask(a, p) == ToMask(b, p)
    ensures 0 <= ToMask(a, p).y.Floor < a.texH && 0 <= ToMask(a, p).x.Floor < a.texW
    ensures AlphaAt(a, p) == a.alpha[ToMask(a, p).y.Floor][ToMask(a, p).x.Floor]
    ensures AlphaAt(b, p) == b.alpha[ToMask(a, p).y.Floor][ToMask(a, p).x.Floor]
  {
    assert a.pos == b.pos && a.bounds == b.bounds && a.texW == b.texW && a.texH == b.texH;
    assert RawMaskX(a, p) == RawMaskX(b, p) && RawMaskY(a, p) == RawMaskY(b, p);
    FloorInRange(ToMask(a, p).x, a.texW);
    FloorInRange(ToMask(a, p).y, a.texH);
  }

  /** Gap between neighbouring shields (and between the outer shields and the
      screen edges) in the evenly spaced row. */
  function ShieldSpacing(w: nat): real
  {
    (ScreenWidth - NumShields as real * w as real * ShieldScale) / (NumShields + 1) as real
  }

  function ShieldLeft(i: nat, w: nat): real
  {
    ShieldSpacing(w) + i as real * (w as real * ShieldScale + ShieldSpacing(w))
  }

  /** The image upside down: the order in which the render texture holds
      the base image once it has been drawn into it, and so the order in which
      every read-back and upload of the mask sees its rows. */
  function FlipRows(img: seq<seq<Byte>>): (r: seq<seq<Byte>>)
    ensures |r| == |img|
    ensures forall y :: 0 <= y < |img| ==> r[y] == img[|img| - 1 - y]
  {
    seq(|img|, y requires 0 <= y < |img| => img[|img| - 1 - y])
  }

  /** A fresh shield `i` of the row: full mask, scaled bounds, active. */
  function FreshShield(i: nat, w: nat, h: nat, img: seq<seq<Byte>>): Shield
  {
    var x := ShieldLeft(i, w);
    Shield(Vec2(x, ShieldTop), Rect(x, ShieldTop, w as real * ShieldScale, h as real * ShieldScale),
           w, h, FlipRows(img), true)
  }

  /** The row of shields as built at game start and at every wave: four
      active shields whose masks hold the whole base image (upside down, as
      the render texture stores it), twice the texture's size, their top edge
      120 above the bottom of the screen. */
  function InitShields(w: nat, h: nat, img: seq<seq<Byte>>): (r: seq<Shield>)
    requires IsImage(img, w, h)
    ensures |r| == NumShields && AllWellFormed(r)
    ensures forall i :: 0 <= i < |r| ==> r[i].active && r[i].texW == w && r[i].texH == h
    ensures forall i, y :: 0 <= i < |r| && 0 <= y < h ==> r[i].alpha[y] == img[h - 1 - y]
    ensures forall i :: 0 <= i < |r| ==>
      r[i].pos == Vec2(r[i].bounds.x, r[i].bounds.y) && r[i].bounds.y == ShieldTop
      && r[i].bounds.w == ShieldScale * w as real && r[i].bounds.h == ShieldScale * h as real
  {
    seq(NumShields, i requires 0 <= i < NumShields => FreshShield(i, w, h, img))
  }

  /** The flip in the transform and the flip of the stored mask cancel: the
      world point at the centre of the (col, row) cell of a fresh shield
      samples the base image's own pixel (col, row), so the shield is hit
      where it is drawn solid. */
  lemma FreshShieldUpright(w: nat, h: nat, img: seq<seq<Byte>>, i: nat, col: nat, row: nat)
    requires IsImage(img, w, h) && i < NumShields && col < w && row < h
    ensures var sh := InitShields(w, h, img)[i];
      var p := Vec2(sh.pos.x + ShieldScale * col as real + 1.0, sh.pos.y + ShieldScale * row as real + 1.0);
      AlphaAt(sh, p) == img[row][col]
  {
    var sh := InitShields(w, h, img)[i];
    var p := Vec2(sh.pos.x + ShieldScale * col as real + 1.0, sh.pos.y + ShieldScale * row as real + 1.0);
    assert ScaleX(sh) == 0.5 by {
      assert sh.bounds.w == 2.0 * w as real;
    }
    assert ScaleY(sh) == 0.5 by {
      assert sh.bounds.h == 2.0 * h as real;
    }
    assert RawMaskX(sh, p) == col as real + 0.5;
    assert RawMaskY(sh, p) == (h - 1 - row) as real + 0.5;
    var m := ToMask(sh, p);
    assert m.x.Floor == col;
    assert m.y.Floor == h - 1 - row;
  }

  /** The row is evenly spaced across the play width: the same gap separates
      the left edge from the first shield, each shield from the next, and the
      last shield from the right edge. */
  lemma ShieldRowEvenlySpaced(w: nat, h: nat, img: seq<seq<Byte>>)
    requires IsImage(img, w, h)
    ensures var r := InitShields(w, h, img);
      && r[0].bounds.x == ShieldSpacing(w)
      && (forall i :: 0 <= i < NumShields - 1 ==>
            r[i + 1].bounds.x - (r[i].bounds.x + r[i].bounds.w) == ShieldSpacing(w))
      && ScreenWidth - (r[3].bounds.x + r[3].bounds.w) == ShieldSpacing(w)
  {
    var r := InitShields(w, h, img);
    var g := ShieldSpacing(w);
    var sw := w as real * ShieldScale;
    assert r[0].bounds.x == g;
    assert r[1].bounds.x == g + (sw + g);
    assert r[2].bounds.x == g + 2.0 * (sw + g);
    assert r[3].bounds.x == g + 3.0 * (sw + g);
  }

  /** The three tests a shot makes against a shield, in order: the shield is
      active, the shot's rectangle overlaps its bounds, and the mask is solid
      at the shot's contact point. */
  predicate Blocks(sh: Shield, rect: Rect, contact: Vec2)
    requires WellFormed(sh)
  {
    sh.active && Overlaps(rect, sh.bounds) && Opaque(sh, contact)
  }

  /** The first shield, in index order, that stops the shot. */
  function FirstBlocking(shields: seq<Shield>, rect: Rect, contact: Vec2): (r: Option<nat>)
    requires AllWellFormed(shields)
    ensures r.Some? ==> r.value < |shields| && Blocks(shields[r.value], rect, contact)
    ensures r.Some? ==> forall j :: 0 <= j < r.value ==> !Blocks(shields[j], rect, contact)
    ensures r.None? ==> forall j :: 0 <= j < |shields| ==> !Blocks(shields[j], rect, contact)
  {
    var flags := seq(|shields|, i requires 0 <= i < |shields| => Blocks(shields[i], rect, contact));
    assert forall j :: 0 <= j < |shields| ==> flags[j] == Blocks(shields[j], rect, contact);
    FirstTrue(flags)
  }

  /** The first active shield, in index order, whose bounds the shot overlaps. */
  function FirstOverlapping(shields: seq<Shield>, rect: Rect): (r: Option<nat>)
    ensures r.Some? ==>
      r.value < |shields| && shields[r.value].active && Overlaps(rect, shields[r.value].bounds)
    ensures r.Some? ==> forall j :: 0 <= j < r.value ==>
      !(shields[j].active && Overlaps(rect, shields[j].bounds))
    ensures r.None? ==> forall j :: 0 <= j < |shields| ==>
      !(shields[j].active && Overlaps(rect, shields[j].bounds))
  {
    var flags := seq(|shields|, i requires 0 <= i < |shields| =>
      shields[i].active && Overlaps(rect, shields[i].bounds));
    assert forall j :: 0 <= j < |shields| ==>
      flags[j] == (shields[j].active && Overlaps(rect, shields[j].bounds));
    FirstTrue(flags)
  }

  /** Damage shield `s` of the row at `p`; the other shields are untouched. */
  function Strike(shields: seq<Shield>, s: nat, p: Vec2): (r: seq<Shield>)
    requires AllWellFormed(shields) && s < |shields|
    ensures |r| == |shields| && AllWellFormed(r)
    ensures r[s] == Damage(shields[s], p)
    ensures forall j :: 0 <= j < |r| && j != s ==> r[j] == shields[j]
    ensures forall j :: 0 <= j < |r| ==> r[j].active == shields[j].active
  {
    shields[s := Damage(shields[s], p)]
  }

  /** `b` is `a` after some hits: the same shields in the same places, with
      every mask pixel either kept or made fully transparent. */
  predicate ErasedFrom(a: seq<Shield>, b: seq<Shield>)
  {
    && |a| == |b| && AllWellFormed(a) && AllWellFormed(b)
    && (forall i :: 0 <= i < |b| ==> b[i].(alpha := a[i].alpha) == a[i])
    && (forall i, y, x :: 0 <= i < |b| && 0 <= y < b[i].texH && 0 <= x < b[i].texW ==>
          b[i].alpha[y][x] == 0 || b[i].alpha[y][x] == a[i].alpha[y][x])
  }

  lemma ErasedFromRefl(a: seq<Shield>)
    requires AllWellFormed(a)
    ensures ErasedFrom(a, a)
  {
  }

  lemma ErasedFromTrans(a: seq<Shield>, b: seq<Shield>, c: seq<Shield>)
    requires ErasedFrom(a, b) && ErasedFrom(b, c)
    ensures ErasedFrom(a, c)
  {
    forall i, y, x | 0 <= i < |c| && 0 <= y < c[i].texH && 0 <= x < c[i].texW
      ensures c[i].alpha[y][x] == 0 || c[i].alpha[y][x] == a[i].alpha[y][x]
    {
      assert b[i].texH == c[i].texH && b[i].texW == c[i].texW;
    }
  }

  /** A strike only erases. */
  lemma StrikeErases(shields: seq<Shield>, s: nat, q: Vec2)
    requires AllWellFormed(shields) && s < |shields|
    ensures ErasedFrom(shields, Strike(shields, s, q))
  {
  }

  /** After hits, a point that tests solid tested solid before. */
  lemma ErasedOpaque(a: seq<Shield>, b: seq<Shield>, i: nat, p: Vec2)
    requires ErasedFrom(a, b) && i < |b|
    ensures Opaque(b[i], p) ==> Opaque(a[i], p)
  {
    SameGeometrySamplesSamePixel(a[i], b[i], p);
  }

  /** Erasing never makes a shot blocked that was not: with nothing blocking
      before the hits, nothing blocks after them. */
  lemma ErasedUnblocked(a: seq<Shield>, b: seq<Shield>, rect: Rect, contact: Vec2)
    requires ErasedFrom(a, b) && FirstBlocking(a, rect, contact).None?
    ensures FirstBlocking(b, rect, contact).None?
  {
    forall j | 0 <= j < |b|
      ensures !Blocks(b[j], rect, contact)
    {
      assert b[j].active == a[j].active && b[j].bounds == a[j].bounds;
      assert !Blocks(a[j], rect, contact);
      ErasedOpaque(a, b, j, contact);
    }
  }

  /** Hits never change which shield a shot overlaps first. */
  lemma ErasedSameOverlap(a: seq<Shield>, b: seq<Shield>, rect: Rect)
    requires ErasedFrom(a, b)
    ensures FirstOverlapping(a, rect) == FirstOverlapping(b, rect)
  {
    assert forall j :: 0 <= j < |b| ==> b[j].active == a[j].active && b[j].bounds == a[j].bounds;
  }
}

=== FILE: ship.dfy ===
/** The player's cannon: steering, its single shot, and the death
    explosion that costs a life when it ends. */
module Ship {
  import opened Basics
  import opened Geometry

  const PlayerSpeed: real := 5.0
  const PlayerShotSpeed: real := 7.0
  const StartLives: int := 3
  /** Seconds the death explosion lasts. */
  const DeathTime: real := 1.0

  /** `explosionTimer > 0` means the cannon is exploding and out of control. */
  datatype Player = Player(
    pos: Vec2,
    size: Vec2,
    lives: int,
    shotActive: bool,
    shotPos: Vec2,
    shotSize: Vec2,
    explosionTimer: real)

  /** The frame's input. `touch` is the x of the mouse or touch point while the button is held. */
  datatype Controls = Controls(left: bool, right: bool, touch: Option<real>, fire: bool)

  /** Where the cannon (re)appears: horizontally centred, 20 above the bottom. */
  function HomePosition(size: Vec2): (p: Vec2)
    ensures p.x + size.x / 2.0 == ScreenWidth / 2.0
    ensures p.y + size.y + 20.0 == ScreenHeight
  {
    Vec2(ScreenWidth / 2.0 - size.x / 2.0, ScreenHeight - size.y - 20.0)
  }

  /** Fire: a shot appears only when none is in flight and the cannon is not
      exploding, centred on the cannon and just above it; otherwise nothing
      changes, so there is never more than the one shot. */
  function SpawnPlayerShot(p: Player): (r: Player)
    ensures r.shotActive
      <==> p.shotActive || p.explosionTimer <= 0.0
    ensures p.shotActive || p.explosionTimer > 0.0 ==> r == p
    ensures !p.shotActive && p.explosionTimer <= 0.0 ==>
      && r == p.(shotActive := true, shotPos := r.shotPos)
      && r.shotPos.x + r.shotSize.x / 2.0 == Center(p.pos, p.size).x
      && r.shotPos.y + r.shotSize.y == p.pos.y
  {
    if !p.shotActive && p.explosionTimer <= 0.0 then
      p.(shotActive := true,
         shotPos := Vec2(p.pos.x + p.size.x / 2.0 - p.shotSize.x / 2.0, p.pos.y - p.shotSize.y))
    else p
  }

  /** Horizontal displacement requested by the frame's input: 5 per held key
      and 5 towards the half of the screen the held touch point is in. */
  function Steering(c: Controls): real
  {
    (if c.left then -PlayerSpeed else 0.0)
    + (if c.right then PlayerSpeed else 0.0)
    + (match c.touch
       case Some(tx) => if tx < ScreenWidth / 2.0 then -PlayerSpeed else PlayerSpeed
       case None => 0.0)
  }

  /** The live cannon's frame: move as steered, kept on screen, then fire if asked. */
  function Control(p: Player, c: Controls): (r: Player)
    requires p.explosionTimer <= 0.0
    ensures r.lives == p.lives && r.explosionTimer == p.explosionTimer && r.pos.y == p.pos.y
    ensures r.size == p.size && r.shotSize == p.shotSize
    ensures 0.0 <= p.size.x <= ScreenWidth ==> 0.0 <= r.pos.x <= ScreenWidth - p.size.x
    ensures r.pos.x == Clamp(p.pos.x + Steering(c), 0.0, ScreenWidth - p.size.x)
    ensures r.shotActive <==> p.shotActive || c.fire
    ensures !p.shotActive && c.fire ==>
      r.shotPos.x + r.shotSize.x / 2.0 == Center(r.pos, r.size).x && r.shotPos.y + r.shotSize.y == r.pos.y
    ensures p.shotActive || !c.fire ==> r.shotPos == p.shotPos
  {
    var steered := p.(pos := Vec2(Clamp(p.pos.x + Steering(c), 0.0, ScreenWidth - p.size.x), p.pos.y));
    if c.fire then SpawnPlayerShot(steered) else steered
  }

  /** The exploding cannon's frame: the death timer counts down; when it runs
      out a life is lost, and either the game is over (no lives left) or the
      cannon reappears at its home position. Returns the cannon and whether
      the game ended. */
  function DeathCountdown(p: Player, delta: real): (r: (Player, bool))
    requires p.explosionTimer > 0.0
    ensures r.0.explosionTimer == p.explosionTimer - delta
    ensures r.0.lives == if p.explosionTimer - delta <= 0.0 then p.lives - 1 else p.lives
    ensures r.1 <==> p.explosionTimer - delta <= 0.0 && p.lives - 1 <= 0
    ensures p.explosionTimer - delta <= 0.0 && !r.1 ==> r.0.pos == HomePosition(p.size)
    ensures !(p.explosionTimer - delta <= 0.0 && !r.1) ==> r.0.pos == p.pos
    ensures r.0.shotActive == p.shotActive && r.0.size == p.size && r.0.shotSize == p.shotSize
  {
    var t := p.explosionTimer - delta;
    var q := p.(explosionTimer := t);
    if t <= 0.0 then
      var lives := q.lives - 1;
      if lives <= 0 then (q.(lives := lives), true)
      else (q.(lives := lives, pos := HomePosition(q.size)), false)
    else (q, false)
  }

  /** The player's part of a frame, by whether the cannon is exploding. */
  function PlayerPhase(p: Player, c: Controls, delta: real): (r: (Player, bool))
    ensures r.0.size == p.size && r.0.shotSize == p.shotSize
    ensures r.1 ==> p.explosionTimer > 0.0 && p.explosionTimer - delta <= 0.0 && p.lives <= 1
    ensures r.0.lives == p.lives || r.0.lives == p.lives - 1
  {
    if p.explosionTimer <= 0.0 then (Control(p, c), false) else DeathCountdown(p, delta)
  }

  /** Each death costs exactly one life, and only when the explosion ends:
      starting from three lives the third completed death ends the game. */
  lemma ThirdDeathEndsGame(p: Player, delta: real)
    requires p.explosionTimer > 0.0 && p.explosionTimer - delta <= 0.0
    ensures DeathCountdown(p, delta).1 <==> p.lives <= 1
    ensures p.lives == StartLives ==> DeathCountdown(p, delta).0.lives == 2
  {
  }

  /** Move the shot up by 7; it is gone once entirely above the screen. */
  function MovePlayerShot(p: Player): (r: Player)
    ensures p.shotActive ==> r.shotPos == Vec2(p.shotPos.x, p.shotPos.y - PlayerShotSpeed)
    ensures p.shotActive ==> (r.shotActive <==> r.shotPos.y + r.shotSize.y >= 0.0)
    ensures !p.shotActive ==> r == p
    ensures r == p.(shotActive := r.shotActive, shotPos := r.shotPos)
  {
    if !p.shotActive then p
    else
      var y := p.shotPos.y - PlayerShotSpeed;
      p.(shotPos := Vec2(p.shotPos.x, y), shotActive := y + p.shotSize.y >= 0.0)
  }
}

=== FILE: swarm.dfy ===
/** The enemy swarm: a 5 x 11 grid that marches in lockstep on a shared timer,
    reverses and drops a row-step at the screen edges, and fires at random
    intervals through a shooting scheduler of its own. */
module Swarm {
  import opened Basics
  import opened Geometry
  import opened Pool

  const Rows: nat := 5
  const Cols: nat := 11
  const NumAliens: nat := 55

  const GridLeft: real := 80.0
  const GridTop: real := 80.0
  const SpacingX: real := 45.0
  const SpacingY: real := 35.0

  /** Horizontal step per march tick (times the direction) and the drop on a reversal. */
  const StepX: real := 3.0
  const StepY: real := 2.0

  const WaitTimeStart: real := 0.8
  const SpeedupFactor: real := 0.97
  const MinWaitTime: real := 0.05
  /** Bounds of the shooting-interval draw, in hundredths of a second. */
  const ShootDrawMin: int := 50
  const ShootDrawMax: int := 200
  const MinShootInterval: real := 0.1

  /** Bottom (10 points), middle (20) and top (30) alien kinds. */
  datatype Tier = Bottom | Middle | Top

  function Points(t: Tier): nat
  {
    match t
    case Top => 30
    case Middle => 20
    case Bottom => 10
  }

  /** Row 0 is the top row, rows 1-2 the middle rows, rows 3-4 the bottom rows. */
  function TierOfRow(row: int): Tier
  {
    if row == 0 then Top else if row < 3 then Middle else Bottom
  }

  /** Collision size of each tier (its sprite scaled by 1.5). */
  datatype TierSizes = TierSizes(bottom: Vec2, middle: Vec2, top: Vec2)

  function SizeOf(sizes: TierSizes, t: Tier): Vec2
  {
    match t
    case Top => sizes.top
    case Middle => sizes.middle
    case Bottom => sizes.bottom
  }

  datatype Alien = Alien(pos: Vec2, base: Vec2, tier: Tier, size: Vec2, active: bool, frame: bool)

  /** The controller's state. `dir` is +1 (right) or -1 (left); `soundIndex`
      picks which of the four march cues the next step plays. */
  datatype SwarmState = SwarmState(
    aliens: seq<Alien>,
    alive: int,
    moveTimer: real,
    waitTime: real,
    dir: int,
    soundIndex: int,
    shootTimer: real)

  /** Number of active aliens. */
  function CountAlive(aliens: seq<Alien>): nat
  {
    if |aliens| == 0 then 0
    else (if aliens[0].active then 1 else 0) + CountAlive(aliens[1..])
  }

  /** The controller's invariants: a full-size grid whose live counter agrees
      with the active flags. */
  predicate ValidSwarm(sw: SwarmState)
  {
    && |sw.aliens| == NumAliens
    && sw.alive == CountAlive(sw.aliens)
    && (sw.dir == 1 || sw.dir == -1)
    && 0 <= sw.soundIndex < 4
  }

  /** Two grids with the same active flags have the same live count. */
  lemma {:induction false} CountAliveSameFlags(a: seq<Alien>, b: seq<Alien>)
    requires |a| == |b|
    requires forall i :: 0 <= i < |a| ==> a[i].active == b[i].active
    ensures CountAlive(a) == CountAlive(b)
  {
    if |a| > 0 {
      assert forall i :: 0 <= i < |a| - 1 ==> a[1..][i] == a[i + 1] && b[1..][i] == b[i + 1];
      CountAliveSameFlags(a[1..], b[1..]);
    }
  }

  /** Deactivating one live alien lowers the live count by exactly one. */
  lemma {:induction false} CountAliveKill(a: seq<Alien>, i: nat)
    requires i < |a| && a[i].active
    ensures CountAlive(a[i := a[i].(active := false)]) == CountAlive(a) - 1
  {
    if i == 0 {
      assert a[i := a[i].(active := false)][1..] == a[1..];
    } else {
      assert a[i := a[i].(active := false)][1..] == a[1..][i - 1 := a[i].(active := false)];
      assert a[1..][i - 1] == a[i];
      CountAliveKill(a[1..], i - 1);
    }
  }

  lemma {:induction false} CountAliveAll(a: seq<Alien>)
    requires forall i :: 0 <= i < |a| ==> a[i].active
    ensures CountAlive(a) == |a|
  {
    if |a| > 0 {
      assert forall i :: 0 <= i < |a| - 1 ==> a[1..][i] == a[i + 1];
      CountAliveAll(a[1..]);
    }
  }

  /** Starting wait between march steps for a wave: 0.8 s, divided by 1.2 for
      the second wave, 1.4 for the third, and so on. */
  function WaveWaitTime(wave: int): real
    requires wave >= 1
  {
    WaitTimeStart / (1.0 + (wave - 1) as real * 0.2)
  }

  /** Later waves start faster, and no wave starts slower than the first. */
  lemma WaveWaitTimeDecreasing(w1: int, w2: int)
    requires 1 <= w1 < w2
    ensures 0.0 < WaveWaitTime(w2) < WaveWaitTime(w1) <= WaitTimeStart
  {
    var d1 := 1.0 + (w1 - 1) as real * 0.2;
    var d2 := 1.0 + (w2 - 1) as real * 0.2;
    assert 1.0 <= d1 < d2;
    var q1, q2 := WaitTimeStart / d1, WaitTimeStart / d2;
    assert q1 * d1 == WaitTimeStart && q2 * d2 == WaitTimeStart;
    assert q2 > 0.0;
    assert q2 * d1 < q2 * d2;
    assert q2 < q1;
  }

  /** The alien at grid index `i` as a new wave places it. */
  function GridAlien(i: nat, sizes: TierSizes): Alien
  {
    var row := i / Cols;
    var col := i % Cols;
    var base := Vec2(GridLeft + col as real * SpacingX, GridTop + row as real * SpacingY);
    Alien(base, base, TierOfRow(row), SizeOf(sizes, TierOfRow(row)), true, false)
  }

  /** A new wave's swarm: every alien active at its grid position with the
      tier of its row, 55 alive, moving right, first march cue, and the march
      timer set to the wave's starting wait. `shootDraw` is the random draw (in
      hundredths of a second) for the first shot. */
  function InitAliens(wave: int, sizes: TierSizes, shootDraw: int): (r: SwarmState)
    requires wave >= 1
    ensures ValidSwarm(r) && r.alive == NumAliens
    ensures forall i :: 0 <= i < |r.aliens| ==>
      && r.aliens[i].active && !r.aliens[i].frame
      && r.aliens[i].pos == r.aliens[i].base
      && r.aliens[i].base == Vec2(GridLeft + (i % Cols) as real * SpacingX,
                                  GridTop + (i / Cols) as real * SpacingY)
      && r.aliens[i].tier == TierOfRow(i / Cols)
      && r.aliens[i].size == SizeOf(sizes, r.aliens[i].tier)
    ensures r.waitTime == WaveWaitTime(wave) && r.moveTimer == r.waitTime
    ensures r.dir == 1 && r.soundIndex == 0
    ensures r.shootTimer == shootDraw as real / 100.0
  {
    var aliens := seq(NumAliens, i requires 0 <= i < NumAliens => GridAlien(i, sizes));
    CountAliveAll(aliens);
    SwarmState(aliens, NumAliens, WaveWaitTime(wave), WaveWaitTime(wave), 1, 0, shootDraw as real / 100.0)
  }

  /** Points for the alien at grid index `i`: 30 in the top row, 20 in the
      two middle rows, 10 in the two bottom rows. */
  lemma GridPoints(i: nat, sizes: TierSizes)
    requires i < NumAliens
    ensures Points(GridAlien(i, sizes).tier) ==
      if i < Cols then 30 else if i < 3 * Cols then 20 else 10
  {
  }

  /** Left edge of the swarm: the smallest x of an active alien, or the screen
      width when none is active. */
  function Leftmost(aliens: seq<Alien>): (r: real)
    ensures r <= ScreenWidth
    ensures forall i :: 0 <= i < |aliens| && aliens[i].active ==> r <= aliens[i].pos.x
    ensures r == ScreenWidth || exists i :: 0 <= i < |aliens| && aliens[i].active && r == aliens[i].pos.x
  {
    if |aliens| == 0 then ScreenWidth
    else
      var rest := Leftmost(aliens[..|aliens| - 1]);
      var last := aliens[|aliens| - 1];
      assert forall i :: 0 <= i < |aliens| - 1 ==> aliens[..|aliens| - 1][i] == aliens[i];
      if last.active && last.pos.x < rest then last.pos.x else rest
  }

  /** Right edge of the swarm: the largest right edge of an active alien, or 0
      when none is active. */
  function Rightmost(aliens: seq<Alien>): (r: real)
    ensures r >= 0.0
    ensures forall i :: 0 <= i < |aliens| && aliens[i].active ==> aliens[i].pos.x + aliens[i].size.x <= r
    ensures r == 0.0 || exists i ::
      0 <= i < |aliens| && aliens[i].active && r == aliens[i].pos.x + aliens[i].size.x
  {
    if |aliens| == 0 then 0.0
    else
      var rest := Rightmost(aliens[..|aliens| - 1]);
      var last := aliens[|aliens| - 1];
      assert forall i :: 0 <= i < |aliens| - 1 ==> aliens[..|aliens| - 1][i] == aliens[i];
      if last.active && last.pos.x + last.size.x > rest then last.pos.x + last.size.x else rest
  }

  /** The next horizontal step would carry the swarm past the edge it is heading for. */
  predicate EdgeHit(sw: SwarmState)
  {
    || (Rightmost(sw.aliens) + StepX * sw.dir as real > ScreenWidth && sw.dir > 0)
    || (Leftmost(sw.aliens) + StepX * sw.dir as real < 0.0 && sw.dir < 0)
  }

  /** One alien's part in a march step. */
  function StepAlien(a: Alien, drop: bool, dir: int): Alien
  {
    if !a.active then a
    else
      a.(pos := if drop then Vec2(a.pos.x, a.pos.y + StepY) else Vec2(a.pos.x + StepX * dir as real, a.pos.y),
         frame := !a.frame)
  }

  /** One lockstep step of the swarm. At an edge the direction reverses and
      every live alien drops by 2 without moving sideways; otherwise every live
      alien moves 3 in the current direction. Live aliens flip their
      animation frame, dead ones are untouched, the march cue advances modulo
      4 and the march timer restarts from the current wait. */
  function March(sw: SwarmState): (r: SwarmState)
    ensures |r.aliens| == |sw.aliens|
    ensures r.alive == sw.alive && r.waitTime == sw.waitTime && r.shootTimer == sw.shootTimer
    ensures r.moveTimer == sw.waitTime
    ensures r.soundIndex == (sw.soundIndex + 1) % 4
    ensures EdgeHit(sw) ==> r.dir == -sw.dir
    ensures !EdgeHit(sw) ==> r.dir == sw.dir
    ensures forall i :: 0 <= i < |sw.aliens| && !sw.aliens[i].active ==> r.aliens[i] == sw.aliens[i]
    ensures forall i :: 0 <= i < |sw.aliens| && sw.aliens[i].active ==>
      && r.aliens[i].active && r.aliens[i].frame == !sw.aliens[i].frame
      && r.aliens[i].tier == sw.aliens[i].tier && r.aliens[i].size == sw.aliens[i].size
      && r.aliens[i].base == sw.aliens[i].base
    ensures EdgeHit(sw) ==> forall i :: 0 <= i < |sw.aliens| && sw.aliens[i].active ==>
      r.aliens[i].pos == Vec2(sw.aliens[i].pos.x, sw.aliens[i].pos.y + StepY)
    ensures !EdgeHit(sw) ==> forall i :: 0 <= i < |sw.aliens| && sw.aliens[i].active ==>
      r.aliens[i].pos == Vec2(sw.aliens[i].pos.x + StepX * sw.dir as real, sw.aliens[i].pos.y)
  {
    var drop := EdgeHit(sw);
    var dir := if drop then -sw.dir else sw.dir;
    var aliens := seq(|sw.aliens|, i requires 0 <= i < |sw.aliens| => StepAlien(sw.aliens[i], drop, dir));
    sw.(aliens := aliens, dir := dir, soundIndex := (sw.soundIndex + 1) % 4, moveTimer := sw.waitTime)
  }

  /** A march step keeps the controller's invariants. */
  lemma MarchWellFormed(sw: SwarmState)
    requires ValidSwarm(sw)
    ensures ValidSwarm(March(sw))
  {
    var r := March(sw);
    CountAliveSameFlags(sw.aliens, r.aliens);
  }

  /** Every live alien lies horizontally within the play field. */
  predicate InField(aliens: seq<Alien>)
  {
    forall i :: 0 <= i < |aliens| && aliens[i].active ==>
      0.0 <= aliens[i].pos.x && aliens[i].pos.x + aliens[i].size.x <= ScreenWidth
  }

  /** The edge test does its job: a swarm inside the play field stays inside
      it after a march step. */
  lemma MarchStaysInField(sw: SwarmState)
    requires (sw.dir == 1 || sw.dir == -1) && InField(sw.aliens)
    ensures InField(March(sw).aliens)
  {
    var r := March(sw);
    if !EdgeHit(sw) {
      forall i | 0 <= i < |sw.aliens| && sw.aliens[i].active
        ensures 0.0 <= r.aliens[i].pos.x && r.aliens[i].pos.x + r.aliens[i].size.x <= ScreenWidth
      {
        if sw.dir == 1 {
          assert sw.aliens[i].pos.x + sw.aliens[i].size.x <= Rightmost(sw.aliens);
        } else {
          assert Leftmost(sw.aliens) <= sw.aliens[i].pos.x;
        }
      }
    }
  }

  /** The reversal scenario: moving right with the rightmost live alien's right
      edge at 798, the next step reverses and drops instead of moving sideways. */
  lemma EdgeReversalScenario(sw: SwarmState, k: nat)
    requires sw.dir == 1 && k < |sw.aliens| && sw.aliens[k].active
    requires sw.aliens[k].pos.x + sw.aliens[k].size.x == ScreenWidth - StepX + 1.0
    ensures March(sw).dir == -1
    ensures forall i :: 0 <= i < |sw.aliens| && sw.aliens[i].active ==>
      March(sw).aliens[i].pos == Vec2(sw.aliens[i].pos.x, sw.aliens[i].pos.y + StepY)
  {
    assert EdgeHit(sw);
  }

  /** The march half of the controller: count the timer down by `delta` and
      take a step when it runs out. */
  function MoveTick(sw: SwarmState, delta: real): (r: SwarmState)
    ensures |r.aliens| == |sw.aliens|
    ensures sw.moveTimer - delta > 0.0 ==> r == sw.(moveTimer := sw.moveTimer - delta)
    ensures sw.moveTimer - delta <= 0.0 ==> r == March(sw)
  {
    var t := sw.moveTimer - delta;
    if t <= 0.0 then March(sw.(moveTimer := t)) else sw.(moveTimer := t)
  }

  /** Every random shooter draw names a grid cell. */
  predicate ValidShooterDraws(draws: seq<int>)
  {
    |draws| == NumAliens && forall k :: 0 <= k < |draws| ==> 0 <= draws[k] < NumAliens
  }

  /** The shooter chosen by the retry loop: the first draw, in draw order, that
      names a live alien; none if all `draws` (one per allowed try) miss. */
  function PickShooter(aliens: seq<Alien>, draws: seq<int>): (r: Option<nat>)
    requires forall k :: 0 <= k < |draws| ==> 0 <= draws[k] < |aliens|
    ensures r.Some? ==> r.value < |aliens| && aliens[r.value].active
    ensures r.Some? ==> exists k ::
      0 <= k < |draws| && draws[k] == r.value && forall j :: 0 <= j < k ==> !aliens[draws[j]].active
    ensures r.None? <==> forall k :: 0 <= k < |draws| ==> !aliens[draws[k]].active
  {
    var hits := seq(|draws|, k requires 0 <= k < |draws| => aliens[draws[k]].active);
    assert forall k :: 0 <= k < |draws| ==> hits[k] == aliens[draws[k]].active;
    match FirstTrue(hits)
    case Some(k) => Some(draws[k] as nat)
    case None => None
  }

  /** Where a shot fired by `a` starts: horizontally centred on it, just below it. */
  function ShotOrigin(a: Alien, shotSize: Vec2): (p: Vec2)
    ensures p.x + shotSize.x / 2.0 == Center(a.pos, a.size).x
    ensures p.y == a.pos.y + a.size.y
  {
    Vec2(a.pos.x + a.size.x / 2.0 - shotSize.x / 2.0, a.pos.y + a.size.y)
  }

  /** Interval scale by remaining population: 1.0 at full strength down to
      0.5 with the swarm gone. */
  function ShootMultiplier(alive: int): (m: real)
    ensures 0 <= alive <= NumAliens ==> 0.5 <= m <= 1.0
    ensures alive == NumAliens ==> m == 1.0
  {
    (alive as real / NumAliens as real) * 0.5 + 0.5
  }

  /** Next shooting interval: the draw in seconds, scaled by the population
      multiplier, never below 0.1 s. */
  function NextShootTimer(alive: int, draw: int): (t: real)
    ensures t >= MinShootInterval
    ensures t > MinShootInterval ==> t == (draw as real / 100.0) * ShootMultiplier(alive)
  {
    var v := (draw as real / 100.0) * ShootMultiplier(alive);
    if v < MinShootInterval then MinShootInterval else v
  }

  lemma ProductBound(a: real, b: real, amax: real, bmax: real)
    requires 0.0 <= a <= amax && 0.0 <= b <= bmax
    ensures a * b <= amax * bmax
  {
    assert a * b <= amax * b;
    assert amax * b <= amax * bmax;
  }

  /** Within the ranges the game produces, the 0.1 s floor never applies: the
      interval is the scaled draw itself, between 0.25 s and 2 s. */
  lemma ShootIntervalFloorUnreached(alive: int, draw: int)
    requires 0 <= alive <= NumAliens && ShootDrawMin <= draw <= ShootDrawMax
    ensures NextShootTimer(alive, draw) == (draw as real / 100.0) * ShootMultiplier(alive)
    ensures 0.25 <= NextShootTimer(alive, draw) <= 2.0
  {
    var m := ShootMultiplier(alive);
    var d := draw as real / 100.0;
    ProductBound(d, m, 2.0, 1.0);
    assert d >= 0.5 && m >= 0.5;
    assert d * m >= 0.5 * 0.5 by {
      assert d * m - 0.25 == (d - 0.5) * m + 0.5 * (m - 0.5);
      assert (d - 0.5) * m >= 0.0;
    }
  }

  /** The shooting half of the controller. When the shot timer runs out while
      aliens remain, a shooter is picked (if the tries find one) and a shot
      spawned below it, and the timer is rescheduled; otherwise only the timer
      counts down. Nothing but the shot timer and the shot pool changes. */
  function ShootTick(sw: SwarmState, shots: seq<Slot<Vec2>>, delta: real, shotSize: Vec2,
                     shooterDraws: seq<int>, intervalDraw: int): (r: (SwarmState, seq<Slot<Vec2>>))
    requires |sw.aliens| == NumAliens && ValidShooterDraws(shooterDraws)
    ensures r.0 == sw.(shootTimer := r.0.shootTimer)
    ensures |r.1| == |shots|
    ensures !(sw.shootTimer - delta <= 0.0 && sw.alive > 0) ==>
      r.0.shootTimer == sw.shootTimer - delta && r.1 == shots
    ensures sw.shootTimer - delta <= 0.0 && sw.alive > 0 ==>
      && r.0.shootTimer == NextShootTimer(sw.alive, intervalDraw)
      && match PickShooter(sw.aliens, shooterDraws)
         case Some(i) => r.1 == Acquire(shots, ShotOrigin(sw.aliens[i], shotSize))
         case None => r.1 == shots
  {
    var t := sw.shootTimer - delta;
    if t <= 0.0 && sw.alive > 0 then
      var shots' := match PickShooter(sw.aliens, shooterDraws)
                    case Some(i) => Acquire(shots, ShotOrigin(sw.aliens[i], shotSize))
                    case None => shots;
      (sw.(shootTimer := NextShootTimer(sw.alive, intervalDraw)), shots')
    else
      (sw.(shootTimer := t), shots)
  }

  /** One frame of the swarm controller: the march timer, then the shooting
      scheduler (which aims from the positions after any march step). */
  function UpdateAliens(sw: SwarmState, shots: seq<Slot<Vec2>>, delta: real, shotSize: Vec2,
                        shooterDraws: seq<int>, intervalDraw: int): (r: (SwarmState, seq<Slot<Vec2>>))
    requires ValidSwarm(sw) && ValidShooterDraws(shooterDraws)
    ensures ValidSwarm(r.0) && r.0.alive == sw.alive && r.0.waitTime == sw.waitTime
    ensures forall i :: 0 <= i < NumAliens ==> r.0.aliens[i].active == sw.aliens[i].active
    ensures |r.1| == |shots|
    ensures CountActive(r.1) <= CountActive(shots) + 1
    ensures CountActive(shots) <= CountActive(r.1)
  {
    var moved := MoveTick(sw, delta);
    MarchWellFormed(sw);
    var r := ShootTick(moved, shots, delta, shotSize, shooterDraws, intervalDraw);
    match PickShooter(moved.aliens, shooterDraws)
    case Some(i) => AcquireCount(shots, ShotOrigin(moved.aliens[i], shotSize)); r
    case None => r
  }
}

=== FILE: world.dfy ===
/** The whole session state, the sprite dimensions it is built from, and
    the invariants every frame keeps. */
module World {
  import opened Geometry
  import opened Pool
  import opened Shields
  import opened Effects
  import opened Swarm
  import opened Saucer
  import opened Ship

  const MaxAlienShots: nat := 10
  const AlienShotSpeed: real := 4.0

  /** Sizes taken from the loaded images (already scaled as the game scales
      them) and the shield image the masks start from. */
  datatype Sprites = Sprites(
    playerSize: Vec2,
    playerShotSize: Vec2,
    alienSizes: TierSizes,
    alienShotSize: Vec2,
    ufoSize: Vec2,
    alienBlastSize: Vec2,
    playerImpactSize: Vec2,
    alienImpactSize: Vec2,
    shieldW: nat,
    shieldH: nat,
    shieldImage: seq<seq<Byte>>)

  predicate ValidSprites(sp: Sprites)
  {
    IsImage(sp.shieldImage, sp.shieldW, sp.shieldH)
  }

  /** The session: the cannon, the swarm, the enemy-shot pool (payload: the
      shot's position; every enemy shot falls at the same speed), the
      shields, the saucer, the explosion pool, scores, wave and flags. */
  datatype Game = Game(
    player: Player,
    swarm: SwarmState,
    alienShots: seq<Slot<Vec2>>,
    shields: seq<Shield>,
    ufo: Ufo,
    blasts: seq<Slot<Blast>>,
    score: int,
    hiScore: int,
    wave: int,
    gameOver: bool,
    paused: bool)

  /** Fixed capacities, a consistent swarm, well-formed masks, and a high
      score that is never behind the score. */
  predicate Inv(g: Game)
  {
    && ValidSwarm(g.swarm)
    && |g.alienShots| == MaxAlienShots
    && |g.blasts| == MaxExplosions
    && |g.shields| == NumShields
    && AllWellFormed(g.shields)
    && 0 <= g.score <= g.hiScore
    && g.wave >= 1
  }

  /** Raise the high score to the score if it is behind. */
  function WithScore(g: Game, score: int): (r: Game)
    ensures r == g.(score := score, hiScore := r.hiScore)
    ensures r.hiScore >= score && r.hiScore >= g.hiScore
    ensures r.hiScore == score || r.hiScore == g.hiScore
  {
    g.(score := score, hiScore := if score > g.hiScore then score else g.hiScore)
  }
}
